=== FILE: README.md ===
# Credit manager accounting core, in Dafny

This project models the accounting core of a credit manager contract. Each
credit account holds coin balances and debt shares. The lender (the "red
bank") pools all borrowed debt of a denom, and an account owes its share of
that pool. The model covers:

- **Borrow engine** (`Borrow`, `DebtShares`, `Ledger`): a borrow mints
  debt shares. An empty pool mints a million shares per coin. Otherwise the
  borrow mints the borrowed fraction of the existing shares, rounded down.
  The denom's total shares, the account's shares and the account's coin
  balance then grow by checked 128-bit additions.
- **Balances** (`Balances`): a deposit is a checked addition. A withdrawal
  is a checked subtraction whose overflow names both operands. A balance
  that reaches zero is removed.
- **Valuation and health** (`Health`): a position lists each non-zero coin
  balance and debt holding of the account with its price and value. The
  holdings are read from the account's stored entries in ascending denom
  order, whether or not the registry still lists their denom; a denom the
  registry does not list is given a max LTV of zero, an assumption (see
  "Left out"). A holding owes the
  pooled debt times shares over total shares, rounded down. The health
  factor is the LTV-weighted collateral value divided by the debt value, as
  an 18-digit fixed-point number.
- **Batches** (`Batch`): only the account's owner may submit a batch. The
  actions run in order and the first error aborts the batch. After the last
  action the account's health is checked once. Any failure leaves the
  ledger and the lender exactly as they were.
- **Vault withdraw** (`Vault`): withdrawing an unlocked vault position. The
  guards are checked in order. The matching unlocking entry is then
  decreased by its full amount, and two messages are queued in order.
- **Config update** (`Config`): only the owner may update the
  configuration. A field given in the update replaces the stored value; an
  omitted field keeps it.
- **Mock oracle** (`MockOracle`): a map from denom to price. It is seeded
  at instantiation, overwritten one denom at a time, and queried by denom.
- **Scenarios** (`Scenarios`): the behaviour the integration tests pin down,
  proved on concrete accounts and amounts. This includes the exact health
  factors 0.998573466476462196 and 0.960099750623441396.

Some things are parameters of the model rather than parts of it:

- the lender's pooled debt and the effect of its borrow message
  (`RedBank.Lender`, with the test double's one unit of simulated yield per
  borrow);
- prices (`MockOracle.Prices`);
- the block time;
- the vault's answer about an unlock time (`Vault.UnlockQuery`);
- the credit manager's own balances of the vault's withdraw denoms, read before a vault withdraw;
- the account's owner.

Emitted messages are abstract values of `Types.Msg`.

`Types.Uint128` is a natural number below 2^128. Every addition,
subtraction and multiplication the source checks is a `Result`-returning
function in `Uint`. `Decimals.Decimal` is a natural number scaled by 10^18,
with multiplication and division rounded down.

## Model

| member | source | states |
|---|---|---|
| Uint.CheckedAdd | contracts/credit-manager/src/borrow.rs:37-64 | the sum when it fits in 128 bits, otherwise an `Add` overflow naming both operands; never a wrap-around |
| Uint.CheckedSub | contracts/credit-manager/tests/test_withdraw.rs:86-93 | the difference when the subtrahend is not larger, otherwise a `Sub` overflow naming both operands; no clamping at zero |
| Uint.CheckedMul | contracts/credit-manager/src/borrow.rs:27-30 | the product when it fits in 128 bits, otherwise a `Mul` overflow |
| Uint.CheckedMultiplyRatio | contracts/credit-manager/src/borrow.rs:31-35 | `a * num / den` rounded down, bracketed by `q * den <= a * num < (q + 1) * den`; a zero denominator and a quotient that does not fit are distinct errors |
| Decimals.Mul | contracts/credit-manager/tests/test_borrow.rs:172-175 | the fixed-point product rounded down, bracketed from both sides |
| Decimals.MulByInt | contracts/credit-manager/tests/test_borrow.rs:172-175 | a price times a whole number of coins loses no digit |
| Decimals.Div | contracts/credit-manager/tests/test_borrow.rs:120-126 | the fixed-point quotient rounded down, bracketed from both sides |
| Decimals.MulAtMostOne | contracts/credit-manager/tests/test_borrow.rs:120-126 | scaling a value by a ratio of at most one never increases it |
| DebtShares.SharesForBorrow | contracts/credit-manager/src/borrow.rs:9-35 | an empty pool mints `amount * 1_000_000` or fails with a `Mul` overflow; a non-empty pool with no stored total is not found; otherwise it mints the floor of total × amount / pooled debt |
| DebtShares.DebtForShares | contracts/credit-manager/tests/test_borrow.rs:272-288 | a holding owes its proportion of the pooled debt, rounded down, bracketed from both sides |
| DebtShares.OwedNeverExceedsPool | contracts/credit-manager/tests/test_borrow.rs:290-301 | however many holders there are, what they owe together (each rounded down) never exceeds the pooled debt |
| DebtShares.BorrowNeverOvercharges | contracts/credit-manager/src/borrow.rs:31-35 | right after a borrow into a non-empty pool, the minted shares are worth at most the borrowed amount |
| DebtShares.BorrowNeverDilutes | contracts/credit-manager/src/borrow.rs:31-35 | a borrow never lowers what an existing holding owes |
| Ledger.Mint | contracts/credit-manager/src/borrow.rs:37-53 | the account's shares and the denom's total grow by the same amount, and every other entry is unchanged |
| Ledger.MintPreservesConservation | contracts/credit-manager/src/borrow.rs:37-53 | minting in lockstep keeps every denom's shares summed over the accounts equal to the stored total |
| Ledger.HeldDenoms | contracts/credit-manager/src/borrow.rs:44-64 | the denoms under which the account has a stored entry, each exactly once, and no other denom |
| Ledger.EmptyConserved | contracts/credit-manager/tests/test_borrow.rs:106-108 | the empty ledger is consistent and stores no zero balance |
| Registry.Find | contracts/credit-manager/src/borrow.rs:21 | the registry entry for a denom exists exactly when some listed coin has that denom, and it is the entry at the first position listing that denom |
| Registry.AssertWhitelisted | contracts/credit-manager/src/borrow.rs:21 | passes exactly for a listed denom, otherwise fails with `NotWhitelisted(denom)` |
| Registry.MaxLtvOf | contracts/credit-manager/tests/helpers/types.rs:11-17 | the max LTV recorded by the first entry for the denom, zero for an unlisted denom, and at most one whenever every entry's is |
| RedBank.Lender.ExecuteBorrow | contracts/credit-manager/tests/test_borrow.rs:184 | the lender's pooled debt of the borrowed denom grows by the amount plus the simulated yield; other denoms are unchanged |
| Borrow.StoredTotal | contracts/credit-manager/src/borrow.rs:32-33 | the stored total of a denom, absent exactly when it was never written |
| Borrow.Borrow | contracts/credit-manager/src/borrow.rs:16-71 | `NoAmount` before any lookup, then `NotWhitelisted`, then the minting rule's errors, then an `Add` overflow naming the operands of the first stored counter that overflows (the total, then the account's shares, then its coins); on success the total, the account's shares and its coins grow (shares by the minted amount, coins by the borrowed amount), nothing else changes, and one lender borrow message carries the same coin |
| Borrow.BorrowPreservesConservation | contracts/credit-manager/src/borrow.rs:37-53 | a successful borrow keeps the sum of account shares equal to each denom's total |
| Borrow.BorrowKeepsBalancesPositive | contracts/credit-manager/src/borrow.rs:55-64 | a borrow stores no zero coin balance |
| Borrow.FirstBorrowSeedsShares | contracts/credit-manager/src/borrow.rs:27-30 | into an empty pool, exactly one million shares are minted per coin |
| Borrow.ProportionalBorrow | contracts/credit-manager/src/borrow.rs:31-35 | into a non-empty pool, the minted shares are the floor of total × amount / pooled debt, never over-minting |
| Borrow.BorrowCanMintNothing | contracts/credit-manager/src/borrow.rs:31-35 | for any whitelisted borrow into a pool whose debt exceeds its total shares times the amount, the borrow succeeds, mints no shares, leaves the account's shares and the total as they were and credits the coins |
| Balances.Deposit | contracts/credit-manager/tests/test_withdraw.rs:113-121 | `NoAmount`, then `NotWhitelisted`, then an `Add` overflow; on success only the account's balance of that denom grows, by the amount |
| Balances.Withdraw | contracts/credit-manager/tests/test_withdraw.rs:42-134 | `NoAmount`, then `NotWhitelisted`, then `Overflow(Sub, have, want)` when the balance falls short; on success the balance drops by the amount, the entry is removed exactly when it reaches zero, and the coin goes to the recipient |
| Balances.DepositThenWithdraw | contracts/credit-manager/tests/test_withdraw.rs:205-236 | depositing and withdrawing the same coin restores the ledger, including an entry that did not exist before |
| Balances.WithdrawThenDeposit | contracts/credit-manager/tests/test_withdraw.rs:283-298 | withdrawing and re-depositing the same coin restores the ledger |
| Balances.BalancesStayPositive | contracts/credit-manager/tests/test_withdraw.rs:300-332 | deposits and withdrawals never leave a zero balance stored |
| MockOracle.Instantiate | contracts/mock-oracle/src/contract.rs:10-20 | every listed denom gets a price, the one listed last for it, and no other denom is priced |
| MockOracle.ChangePrice | contracts/mock-oracle/src/contract.rs:34-37 | the changed denom gets the new price; every other denom keeps its price or stays unpriced |
| MockOracle.QueryAssetPrice | contracts/mock-oracle/src/contract.rs:52-54 | a stored price is returned; an unknown denom is not found |
| MockOracle.Query | contracts/mock-oracle/src/contract.rs:39-48 | a price query is answered as above; any other query fails with the unimplemented-query message |
| MockOracle.ChangeThenQuery | contracts/mock-oracle/src/contract.rs:34-54 | after a change, the changed denom queries to the new price and every other denom queries as before |
| MockOracle.ChangeTwiceKeepsLast | contracts/mock-oracle/src/contract.rs:34-37 | two changes of one denom leave only the second price |
| Health.PriceOf | contracts/mock-oracle/src/contract.rs:52-54 | the oracle's price of a denom; a missing price fails the valuation |
| Health.ValueCoins | contracts/credit-manager/tests/test_borrow.rs:163-175 | every non-zero balance the account has, in any denom, is listed exactly once at its price times its amount, and nothing else is listed; it fails exactly when such a balance has no price |
| Health.ValueDebts | contracts/credit-manager/tests/test_borrow.rs:177-188 | every non-zero debt-share holding the account has, in any denom, is listed exactly once with its rounded-down part of the pooled debt at the price, and nothing else is listed; it fails exactly when such a holding has no price or its part of the debt cannot be computed |
| Health.QueryPosition | contracts/credit-manager/tests/test_borrow.rs:163-188 | the position belongs to the account and lists each of its non-zero balances and debt holdings exactly once, valued; it fails exactly when a holding has no price or its debt cannot be computed |
| Health.SumAdjusted | contracts/credit-manager/tests/test_borrow.rs:120-126 | while every max LTV is at most one, the LTV-weighted collateral never exceeds the collateral value |
| Health.SumDebtValuesCovers | contracts/credit-manager/tests/test_borrow.rs:177-188 | the value of each listed debt holding is part of the debt total |
| Health.ComputeHealth | scripts/types/generated/credit-manager/CreditManager.types.ts:319-329 | the collateral and debt totals are the sums of the listed coins' and debts' values; the factor is absent exactly when there is no debt, and otherwise it is the weighted collateral over the debt, rounded down; the account is above its max LTV exactly when it has debt and its weighted collateral is worth less than that debt |
| Health.FactorBelowOne | contracts/credit-manager/tests/test_borrow.rs:120-126 | a health factor below one is the same as weighted collateral worth less than the debt |
| Batch.ApplyAction | contracts/credit-manager/tests/test_withdraw.rs:113-121 | `NoAmount` for a zero coin and `NotWhitelisted` for an unlisted one; only the acting account's entries for the coin's denom and that denom's total can change; a deposit or withdrawal moves that balance by the amount and leaves shares and lender alone, succeeding exactly when the sum fits or the balance suffices; a borrow also mints matching account and total shares and grows the lender's debt of that denom alone by the amount plus the yield; the messages are none, a bank send to the recipient, or a lender borrow |
| Batch.ApplyActions | contracts/credit-manager/tests/test_withdraw.rs:99-134 | the first action's error aborts the batch; on success each withdrawal and borrow has emitted one message, the lender has booked every borrow of each denom plus the yield, and no other account's balances or shares changed |
| Batch.HealthOf | scripts/types/generated/credit-manager/CreditManager.types.ts:319-329 | the health exists exactly when the position does; its totals are the position's collateral, LTV-weighted collateral and debt values; it is above the max LTV exactly when there is debt worth more than the weighted collateral; an account without debt shares has no debt value and is never above |
| Batch.WithdrawnDenomLeavesPosition | contracts/credit-manager/tests/test_withdraw.rs:205-236 | after withdrawing a whole balance the position lists no coin of that denom, and lists every other balance with its amount |
| Batch.DepositShowsInPosition | contracts/credit-manager/tests/test_borrow.rs:163-175 | after a deposit the position lists the denom with the grown balance |
| Batch.EveryDebtCounts | contracts/credit-manager/tests/test_update_config.rs:55-56 | every debt-share holding is listed and counts toward the debt value, even in a denom the registry no longer lists |
| Batch.UpdateCreditAccount | contracts/credit-manager/tests/test_withdraw.rs:167-203 | a non-owner gets `NotTokenOwner`; the first failing action's error is returned; otherwise the end state's health decides between `AboveMaxLTV` with its factor and success |
| Batch.Execute | contracts/credit-manager/tests/test_withdraw.rs:123-133 | a non-owner changes nothing; a changed world is the world after every action and within the max LTV; no other account's balances or shares ever change |
| Batch.AllOrNothing | contracts/credit-manager/tests/test_withdraw.rs:99-134 | a batch either leaves the world exactly as it was or commits the world reached by every action, which is within the max LTV |
| Batch.NonOwnerChangesNothing | contracts/credit-manager/tests/test_withdraw.rs:12-40 | a non-owner's batch fails with `NotTokenOwner` and changes nothing |
| Batch.ApplyActionsAppend | contracts/credit-manager/tests/test_withdraw.rs:113-121 | actions run in order: a batch split in two is its first part, then its second part on the result, messages concatenated |
| Batch.ActionsPreserveInvariants | contracts/credit-manager/tests/test_borrow.rs:265-270 | every successful action sequence keeps shares conserved and stores no zero balance |
| Batch.BatchPreservesInvariants | contracts/credit-manager/tests/test_borrow.rs:265-270 | after any batch, committed or not, each denom's shares held by the accounts add up to the stored total and no zero balance is stored |
| Vault.AssertVaultWhitelisted | contracts/credit-manager/src/vault/withdraw_unlocked.rs:22 | passes exactly for an allowed vault, otherwise `NotWhitelisted(vault)` |
| Vault.LoadPosition | contracts/credit-manager/src/vault/withdraw_unlocked.rs:24 | the stored position of the account in the vault; a missing one is not found |
| Vault.FindUnlocking | contracts/credit-manager/src/vault/withdraw_unlocked.rs:25 | the index of the first unlocking entry with the id; none exactly when no entry has it |
| Vault.GetUnlockingPosition | contracts/credit-manager/src/vault/withdraw_unlocked.rs:25 | an entry of the position with the id, or `NoPositionMatch(id)` exactly when there is none |
| Vault.DecrementUnlocking | contracts/credit-manager/src/vault/withdraw_unlocked.rs:32-41 | the matching entry drops by the amount, checked; every other entry and the locked and unlocked amounts stay |
| Vault.WithdrawUnlocked | contracts/credit-manager/src/vault/withdraw_unlocked.rs:15-61 | guards in order (whitelist, position, matching entry, unlock query, `UnlockNotReady` when the unlock time is after now); on success only the matching entry changes, to zero, and the messages are the vault withdraw then the balance callback for the same account |
| Vault.UnlockTimeBoundary | contracts/credit-manager/src/vault/withdraw_unlocked.rs:28-30 | a withdraw exactly at the unlock time succeeds; one tick earlier it is `UnlockNotReady` |
| Vault.WithdrawTwiceKeepsState | contracts/credit-manager/src/vault/withdraw_unlocked.rs:32-41 | withdrawing the same entry again succeeds and leaves the vault state as the first withdraw left it, while queuing the same two messages again |
| Config.UpdateConfig | contracts/credit-manager/tests/test_update_config.rs:10-32 | a non-owner is refused; for the owner each field given is replaced and each field omitted is kept, a given allow-list being stored as the set of its entries |
| Config.NothingPassedChangesNothing | contracts/credit-manager/tests/test_update_config.rs:137-168 | an update naming nothing leaves the configuration as it was |
| Config.FullUpdateReplacesAll | contracts/credit-manager/tests/test_update_config.rs:34-98 | an update naming every field sets exactly the given values, the allow-lists holding exactly the entries given |
| Config.RepeatedEntriesStoredOnce | contracts/credit-manager/src/state.rs:7-8 | an allow-list given with every entry repeated is stored exactly as if each entry were given once |
| Config.UpdateIdempotent | contracts/credit-manager/tests/test_update_config.rs:100-135 | applying the same update twice is applying it once |
| Config.UpdatesCompose | contracts/credit-manager/tests/test_update_config.rs:100-135 | two updates in a row equal one update in which the later one wins field by field |
| Config.OwnerHandOver | contracts/credit-manager/tests/test_update_config.rs:34-73 | after the owner hands ownership over, the old owner is refused and the new owner is accepted |
| Scenarios.SoleHealth | contracts/credit-manager/tests/test_borrow.rs:93-127 | an account holding all the uosmo debt is above its max LTV exactly when 7 × coins < 10 × debt, with factor 7 × coins / (10 × debt) |
| Scenarios.BorrowAboveMaxLtvRollsBack | contracts/credit-manager/tests/test_borrow.rs:93-127 | depositing 300 and borrowing 700 is refused with factor 0.998573466476462196, and nothing is kept |
| Scenarios.FirstBorrowOf42 | contracts/credit-manager/tests/test_borrow.rs:129-205 | depositing 300 and borrowing 42 leaves 342 coins and 42 million shares, which are all the shares, and debt valued at 43 × price |
| Scenarios.BorrowZero | contracts/credit-manager/tests/test_borrow.rs:67-90 | borrowing zero fails with `NoAmount` and leaves nothing |
| Scenarios.TwoBorrowers | contracts/credit-manager/tests/test_borrow.rs:207-270 | the second borrower of 50 gets 49019607 shares, floor(50e6 × 50 / 51), and the total equals the two holdings |
| Scenarios.TwoBorrowersOwe | contracts/credit-manager/tests/test_borrow.rs:272-301 | the two borrowers owe 51 and 50 of the pooled 102, each rounded down |
| Scenarios.WithdrawZero | contracts/credit-manager/tests/test_withdraw.rs:42-66 | withdrawing zero fails with `NoAmount` and leaves nothing |
| Scenarios.WithdrawWithoutFunds | contracts/credit-manager/tests/test_withdraw.rs:68-97 | withdrawing 234 from nothing fails with `Overflow(Sub, 0, 234)` |
| Scenarios.WithdrawMoreThanDeposited | contracts/credit-manager/tests/test_withdraw.rs:99-134 | depositing 300 and withdrawing 400 fails with `Overflow(Sub, 300, 400)`, and the deposit is not kept |
| Scenarios.WithdrawNotWhitelisted | contracts/credit-manager/tests/test_withdraw.rs:136-165 | withdrawing an unlisted denom after a deposit fails with `NotWhitelisted`, and the deposit is not kept |
| Scenarios.WithdrawAboveMaxLtvRollsBack | contracts/credit-manager/tests/test_withdraw.rs:167-203 | depositing 200, borrowing 400 and withdrawing 50 is refused with factor 0.960099750623441396, and nothing is kept |
| Scenarios.DepositWithdrawAll | contracts/credit-manager/tests/test_withdraw.rs:205-236 | depositing and withdrawing 234 in one batch is committed and leaves no coin entry |
| Scenarios.WithdrawCommitted | contracts/credit-manager/tests/test_withdraw.rs:283-332 | a withdrawal from a coin-only account is committed, keeping the remainder or removing the entry when nothing remains |
| Scenarios.WithdrawInTwoSteps | contracts/credit-manager/tests/test_withdraw.rs:300-332 | withdrawing 20 of 25 keeps 5, and withdrawing those 5 empties the account |

## Left out

- Deposit: the check that the funds sent with the batch match the deposited coins is left out. The deposit source is not part of this model.
- Repay, liquidation, swaps and vault deposits are not part of this model. Their sources are not shown, and no shown test exercises them.
- Interest accrual at the lender, and the lender's own liquidity balance, are external to the credit manager. The pooled debt is an input, changed only by the borrow message.
- Account NFT minting and ownership are external. The owner of an account is a parameter.
- `HealthResponse` liquidation fields (`liquidatable`, `liquidation_health_factor`, the liquidation-threshold-adjusted collateral) are left out, because no shown code or test computes them.
- Decimal overflow: `Decimals.Decimal` is unbounded. The concrete scenarios stay far below the 128-bit limit of the source's fixed-point type. The general members and lemmas (`Health.ValueCoins`, `Health.ValueDebts`, `Health.SumAdjusted`, `Health.ComputeHealth` and those built on them) do not model that limit: where the source's fixed-point multiply or sum would overflow and fail, the model succeeds.
- Vault.DecrementUnlocking: `update_vault_position` is not part of this model. The decremented entry is kept at zero rather than removed, and the locked and unlocked amounts are untouched.
- Vault.WithdrawUnlocked: the error names `NotWhitelisted`, `NoPositionMatch` and the not-found error for a missing position are assumed, since the vault helpers are not shown.
- Config.UpdateConfig: the refusal of a non-owner is modelled as `Unauthorized`. The test asserts only that the update fails.
- Config: the allowed coins and vaults are stored in the configuration itself, while the source keeps them in separate allow-lists. Like the source's allow-lists (state.rs:7-8), they are stored as sets: repeated entries collapse and a new list replaces the old one whole. The order in which a query lists them (key order in the source) is not modelled.
- The test fixtures' uosmo price is not shown. The scenarios price uosmo at 0.25. For a single-denom account the health factor does not depend on the price.
- Balances.Deposit: the deposit source is not part of this model. The guard order (`NoAmount`, then `NotWhitelisted`) is assumed to mirror the borrow and withdraw paths. The add-overflow error is assumed to be `Overflow(Add)`, the wrapper the withdraw path's subtraction uses; it differs from the borrow path's coin-balance add, which reports `Std(StdOverflow(..))` (borrow.rs:55-64).
- Balances.Withdraw: the tests pin `NoAmount` for a zero amount, `NotWhitelisted` for an unlisted denom and `Overflow(Sub)` for a short balance, but not which guard wins when several apply. The order `NoAmount`, then `NotWhitelisted`, is assumed.
- RedBank.Lender.QueryDebt: the lender's debt query and its borrow message cannot fail in the model. The source propagates errors from both (borrow.rs:23-25 and borrow.rs:67), which come from outside the credit manager.
- Health.ValueCoins: a zero stored balance is skipped, not listed. Zero balances are never stored (see `Balances.BalancesStayPositive`), so nothing is lost.
- Health.ValueDebts: a zero stored share holding is skipped, not listed. Such a holding can only come from a borrow that minted no shares (`Borrow.BorrowCanMintNothing`); the code that lists holdings is not shown, and a zero holding owes nothing, so listing it would add nothing to the totals.
- Registry.MaxLtvOf: the source's max-LTV lookup is not part of this model. Giving a collateral denom that the registry no longer lists a max LTV of zero, so that it adds nothing to the LTV-weighted collateral, is an assumption.
- Ledger.HeldDenoms: the code that lists an account's holdings is not part of this model. The model assumes a prefix range over the account's keys, which returns them in byte order; `Keys` orders denoms character by character, the same order for ASCII denoms.
- Scenarios: the test with a second denom (uatom, test_withdraw.rs:238-333) is modelled with a single denom. Denoms are independent in the ledger.
- Response attributes, JSON encodings and the wire format of messages are out of scope. Messages are abstract values.

=== FILE: balances.dfy ===
/** Coin balances held by an account: deposits add to them, withdrawals take
    from them with a checked subtraction. A balance that reaches zero is
    removed, so an emptied denom disappears from the account's position. */
module Balances {
  import opened Types
  import Uint
  import opened Ledger
  import opened Registry

  datatype WithdrawResponse = WithdrawResponse(ledger: Ledger, msg: Msg)

  /** Deposit `coin` into `account`: refused for a zero amount or a
      non-whitelisted denom, otherwise a checked addition. */
  function Deposit(registry: Registry, l: Ledger, account: AccountId, coin: Coin): (r: Result<Ledger, ContractError>)
    ensures coin.amount == 0 ==> r == Err(NoAmount)
    ensures coin.amount > 0 && !IsWhitelisted(registry, coin.denom) ==> r == Err(NotWhitelisted(coin.denom))
    ensures r.Ok? <==> coin.amount > 0 && IsWhitelisted(registry, coin.denom)
                       && l.AssetOf(account, coin.denom) + coin.amount < UINT128_LIMIT
    ensures r.Err? && coin.amount > 0 && IsWhitelisted(registry, coin.denom) ==>
              r.error == Overflow(OverflowError(Add, l.AssetOf(account, coin.denom), coin.amount))
    ensures r.Ok? ==>
              && r.value.AssetOf(account, coin.denom) == l.AssetOf(account, coin.denom) + coin.amount
              && (account, coin.denom) in r.value.assets
              && r.value.assets - {(account, coin.denom)} == l.assets - {(account, coin.denom)}
              && r.value.debtShares == l.debtShares
              && r.value.totalDebtShares == l.totalDebtShares
  {
    if coin.amount == 0 then Err(NoAmount)
    else
      var _ :- AssertWhitelisted(registry, coin.denom);
      var amount :- Uint.CheckedAdd(l.AssetOf(account, coin.denom), coin.amount).MapErr(e => Overflow(e));
      Ok(l.(assets := l.assets[(account, coin.denom) := amount]))
  }

  /** Withdraw `coin` from `account` to `recipient`: refused for a zero
      amount or a non-whitelisted denom; a balance short of the amount
      (a missing balance counts as zero) fails with a subtraction overflow
      naming both operands, and nothing is clamped. */
  function Withdraw(registry: Registry, l: Ledger, account: AccountId, recipient: Addr, coin: Coin): (r: Result<WithdrawResponse, ContractError>)
    ensures coin.amount == 0 ==> r == Err(NoAmount)
    ensures coin.amount > 0 && !IsWhitelisted(registry, coin.denom) ==> r == Err(NotWhitelisted(coin.denom))
    ensures coin.amount > 0 && IsWhitelisted(registry, coin.denom) && l.AssetOf(account, coin.denom) < coin.amount ==>
              r == Err(Overflow(OverflowError(Sub, l.AssetOf(account, coin.denom), coin.amount)))
    ensures r.Ok? <==> coin.amount > 0 && IsWhitelisted(registry, coin.denom)
                       && coin.amount <= l.AssetOf(account, coin.denom)
    ensures r.Ok? ==>
              var l' := r.value.ledger;
              var key := (account, coin.denom);
              && l'.AssetOf(account, coin.denom) + coin.amount == l.AssetOf(account, coin.denom)
              && (key in l'.assets <==> coin.amount < l.AssetOf(account, coin.denom))
              && l'.assets - {key} == l.assets - {key}
              && l'.debtShares == l.debtShares
              && l'.totalDebtShares == l.totalDebtShares
              && r.value.msg == BankSend(recipient, coin)
  {
    if coin.amount == 0 then Err(NoAmount)
    else
      var _ :- AssertWhitelisted(registry, coin.denom);
      var key := (account, coin.denom);
      var remaining :- Uint.CheckedSub(l.AssetOf(account, coin.denom), coin.amount).MapErr(e => Overflow(e));
      var assets := if remaining == 0 then l.assets - {key} else l.assets[key := remaining];
      Ok(WithdrawResponse(l.(assets := assets), BankSend(recipient, coin)))
  }

  /** Depositing a coin and then withdrawing it again restores the ledger
      exactly, including the absence of an entry that did not exist. */
  lemma {:induction false} DepositThenWithdraw(registry: Registry, l: Ledger, account: AccountId, recipient: Addr, coin: Coin)
    requires NoZeroBalances(l)
    requires Deposit(registry, l, account, coin).Ok?
    ensures Withdraw(registry, Deposit(registry, l, account, coin).value, account, recipient, coin).Ok?
    ensures Withdraw(registry, Deposit(registry, l, account, coin).value, account, recipient, coin).value.ledger == l
  {
    var key := (account, coin.denom);
    var d := Deposit(registry, l, account, coin).value;
    var w := Withdraw(registry, d, account, recipient, coin).value.ledger;
    assert w.assets - {key} == l.assets - {key};
    assert key in w.assets <==> key in l.assets;
    if key in l.assets {
      assert w.assets[key] == l.assets[key];
    }
    assert w.assets == l.assets;
  }

  /** Withdrawing a coin and then depositing it again restores the ledger. */
  lemma {:induction false} WithdrawThenDeposit(registry: Registry, l: Ledger, account: AccountId, recipient: Addr, coin: Coin)
    requires NoZeroBalances(l)
    requires Withdraw(registry, l, account, recipient, coin).Ok?
    ensures Deposit(registry, Withdraw(registry, l, account, recipient, coin).value.ledger, account, coin).Ok?
    ensures Deposit(registry, Withdraw(registry, l, account, recipient, coin).value.ledger, account, coin).value == l
  {
    var key := (account, coin.denom);
    var w := Withdraw(registry, l, account, recipient, coin).value.ledger;
    var d := Deposit(registry, w, account, coin).value;
    assert d.assets - {key} == l.assets - {key};
    assert key in d.assets && key in l.assets;
    assert d.assets[key] == l.assets[key];
    assert d.assets == l.assets;
  }

  /** Deposits and withdrawals never leave a zero balance stored. */
  lemma {:induction false} BalancesStayPositive(registry: Registry, l: Ledger, account: AccountId, recipient: Addr, coin: Coin)
    requires NoZeroBalances(l)
    ensures Deposit(registry, l, account, coin).Ok? ==> NoZeroBalances(Deposit(registry, l, account, coin).value)
    ensures Withdraw(registry, l, account, recipient, coin).Ok? ==>
              NoZeroBalances(Withdraw(registry, l, account, recipient, coin).value.ledger)
  {
    var key := (account, coin.denom);
    if Withdraw(registry, l, account, recipient, coin).Ok? {
      var w := Withdraw(registry, l, account, recipient, coin).value.ledger;
      forall k | k in w.assets ensures w.assets[k] > 0 {
        if k != key {
          assert k in w.assets - {key};
        }
      }
    }
    if Deposit(registry, l, account, coin).Ok? {
      var d := Deposit(registry, l, account, coin).value;
      forall k | k in d.assets ensures d.assets[k] > 0 {
        if k != key {
          assert k in d.assets - {key};
        }
      }
    }
  }
}

=== FILE: batch.dfy ===
/** The account update orchestrator. A batch of actions for one account is
    applied in order; the first failing action aborts it; after the last
    action the account's health is checked once. Any failure discards the
    whole batch, so the ledger and the lender are left as they were. */
module Batch {
  import opened Types
  import opened Ledger
  import opened Registry
  import opened RedBank
  import opened Health
  import Balances
  import Borrow
  import MockOracle

  datatype Action = Deposit(coin: Coin) | Withdraw(coin: Coin) | Borrow(coin: Coin)

  /** Everything a batch can change: the credit manager's ledger and the
      lender's pooled debt (the lender executes each borrow message). */
  datatype World = World(ledger: Ledger, lender: Lender)

  /** What a batch reads but never changes: the coin registry and prices. */
  datatype Env = Env(registry: Registry, prices: MockOracle.Prices)

  datatype Applied = Applied(world: World, msgs: seq<Msg>)

  /** One action. Withdrawn coins go to `recipient`, the account's owner.
      A borrow's lender message is executed before the next action runs,
      so later actions see the grown pooled debt. An action touches only
      the acting account's entries for its coin's denom and that denom's
      total; only a borrow moves the lender, and only for that denom. */
  function ApplyAction(env: Env, w: World, account: AccountId, recipient: Addr, action: Action): (r: Result<Applied, ContractError>)
    ensures action.coin.amount == 0 ==> r == Err(NoAmount)
    ensures action.coin.amount > 0 && !IsWhitelisted(env.registry, action.coin.denom) ==>
              r == Err(NotWhitelisted(action.coin.denom))
    ensures r.Ok? ==> Touches(w.ledger, r.value.world.ledger, account, action.coin.denom)
    ensures action.Deposit? ==>
              && (r.Ok? <==> action.coin.amount > 0 && IsWhitelisted(env.registry, action.coin.denom)
                             && w.ledger.AssetOf(account, action.coin.denom) + action.coin.amount < UINT128_LIMIT)
              && (r.Ok? ==> && r.value.world.ledger.AssetOf(account, action.coin.denom)
                                == w.ledger.AssetOf(account, action.coin.denom) + action.coin.amount
                            && r.value.world.ledger.debtShares == w.ledger.debtShares
                            && r.value.world.ledger.totalDebtShares == w.ledger.totalDebtShares
                            && r.value.world.lender == w.lender
                            && r.value.msgs == [])
    ensures action.Withdraw? ==>
              && (r.Ok? <==> action.coin.amount > 0 && IsWhitelisted(env.registry, action.coin.denom)
                             && action.coin.amount <= w.ledger.AssetOf(account, action.coin.denom))
              && (r.Ok? ==> && r.value.world.ledger.AssetOf(account, action.coin.denom) + action.coin.amount
                                == w.ledger.AssetOf(account, action.coin.denom)
                            && r.value.world.ledger.debtShares == w.ledger.debtShares
                            && r.value.world.ledger.totalDebtShares == w.ledger.totalDebtShares
                            && r.value.world.lender == w.lender
                            && r.value.msgs == [BankSend(recipient, action.coin)])
    ensures action.Borrow? && r.Ok? ==>
              var l := w.ledger;
              var l' := r.value.world.ledger;
              var denom := action.coin.denom;
              && l'.AssetOf(account, denom) == l.AssetOf(account, denom) + action.coin.amount
              && l'.SharesOf(account, denom) - l.SharesOf(account, denom) == l'.TotalSharesOf(denom) - l.TotalSharesOf(denom)
              && r.value.world.lender.QueryDebt(denom) == w.lender.QueryDebt(denom) + action.coin.amount + w.lender.simulatedYield
              && (forall d :: d != denom ==> r.value.world.lender.QueryDebt(d) == w.lender.QueryDebt(d))
              && r.value.world.lender.simulatedYield == w.lender.simulatedYield
              && r.value.msgs == [LenderBorrow(action.coin)]
  {
    match action
    case Deposit(coin) =>
      var l :- Balances.Deposit(env.registry, w.ledger, account, coin);
      Ok(Applied(World(l, w.lender), []))
    case Withdraw(coin) =>
      var resp :- Balances.Withdraw(env.registry, w.ledger, account, recipient, coin);
      Ok(Applied(World(resp.ledger, w.lender), [resp.msg]))
    case Borrow(coin) =>
      var resp :- Borrow.Borrow(env.registry, w.ledger, w.lender, account, coin);
      Ok(Applied(World(resp.ledger, w.lender.ExecuteBorrow(coin)), [resp.msg]))
  }

  /** `l'` differs from `l` at most in the entries of `account` for
      `denom` and in the total of `denom`. */
  ghost predicate Touches(l: Ledger, l': Ledger, account: AccountId, denom: Denom)
  {
    && l'.assets - {(account, denom)} == l.assets - {(account, denom)}
    && l'.debtShares - {(account, denom)} == l.debtShares - {(account, denom)}
    && l'.totalDebtShares - {denom} == l.totalDebtShares - {denom}
  }

  /** No account other than `account` has a different balance or share
      holding in `l'` than in `l`. */
  ghost predicate OthersUntouched(l: Ledger, l': Ledger, account: AccountId)
  {
    forall other, denom :: other != account ==>
      l'.AssetOf(other, denom) == l.AssetOf(other, denom) && l'.SharesOf(other, denom) == l.SharesOf(other, denom)
  }

  /** The messages a batch emits: one per withdrawal or borrow. */
  function MessageCount(actions: seq<Action>): nat
  {
    if |actions| == 0 then 0
    else (if actions[0].Deposit? then 0 else 1) + MessageCount(actions[1..])
  }

  /** What the lender books for a batch's borrows of `denom`: each borrow's
      amount plus the simulated yield. */
  function BorrowedOf(actions: seq<Action>, denom: Denom, extra: nat): nat
  {
    if |actions| == 0 then 0
    else
      (if actions[0].Borrow? && actions[0].coin.denom == denom then actions[0].coin.amount + extra else 0)
      + BorrowedOf(actions[1..], denom, extra)
  }

  lemma TouchesOnlyAccount(l: Ledger, l': Ledger, account: AccountId, denom: Denom)
    requires Touches(l, l', account, denom)
    ensures OthersUntouched(l, l', account)
  {
    forall other, d | other != account
      ensures l'.AssetOf(other, d) == l.AssetOf(other, d) && l'.SharesOf(other, d) == l.SharesOf(other, d)
    {
      var k := (other, d);
      assert k in l'.assets - {(account, denom)} <==> k in l.assets - {(account, denom)};
      assert k in l'.debtShares - {(account, denom)} <==> k in l.debtShares - {(account, denom)};
    }
  }

  /** The actions in order, stopping at the first error: the first failing
      action's error is the batch's. On success every withdrawal and borrow
      has emitted one message, the lender has booked every borrow, and no
      other account was touched. */
  function ApplyActions(env: Env, w: World, account: AccountId, recipient: Addr, actions: seq<Action>): (r: Result<Applied, ContractError>)
    ensures |actions| > 0 && ApplyAction(env, w, account, recipient, actions[0]).Err? ==>
              r == Err(ApplyAction(env, w, account, recipient, actions[0]).error)
    ensures r.Ok? ==> |r.value.msgs| == MessageCount(actions)
    ensures r.Ok? ==> r.value.world.lender.simulatedYield == w.lender.simulatedYield
    ensures r.Ok? ==> forall d :: r.value.world.lender.QueryDebt(d)
                                  == w.lender.QueryDebt(d) + BorrowedOf(actions, d, w.lender.simulatedYield)
    ensures r.Ok? ==> OthersUntouched(w.ledger, r.value.world.ledger, account)
    decreases |actions|
  {
    if |actions| == 0 then Ok(Applied(w, []))
    else
      var first :- ApplyAction(env, w, account, recipient, actions[0]);
      var rest :- ApplyActions(env, first.world, account, recipient, actions[1..]);
      TouchesOnlyAccount(w.ledger, first.world.ledger, account, actions[0].coin.denom);
      Ok(Applied(rest.world, first.msgs + rest.msgs))
  }

  /** The health of `account` in a world, computed from its position. An
      account without debt shares is never above its max LTV. */
  function HealthOf(env: Env, w: World, account: AccountId): (r: Result<HealthResponse, ContractError>)
    ensures r.Ok? <==> QueryPosition(w.ledger, w.lender, env.prices, account).Ok?
    ensures r.Ok? ==>
              var p := QueryPosition(w.ledger, w.lender, env.prices, account).value;
              && r.value.totalCollateralValue == SumCoinValues(p.coins)
              && r.value.totalDebtValue == SumDebtValues(p.debt)
              && r.value.maxLtvAdjustedCollateral == SumAdjusted(env.registry, p.coins)
              && (r.value.aboveMaxLtv <==> r.value.totalDebtValue > 0 && r.value.maxLtvAdjustedCollateral < r.value.totalDebtValue)
    ensures r.Ok? && (forall d :: w.ledger.SharesOf(account, d) == 0) ==>
              r.value.totalDebtValue == 0 && !r.value.aboveMaxLtv
  {
    var position :- QueryPosition(w.ledger, w.lender, env.prices, account);
    assert |position.debt| > 0 ==> position.debt[0] in position.debt;
    Ok(ComputeHealth(env.registry, position))
  }

  /** A withdrawal of a whole balance takes its denom out of the account's
      position, and every other balance stays listed with its amount. */
  lemma WithdrawnDenomLeavesPosition(env: Env, w: World, account: AccountId, recipient: Addr, coin: Coin)
    requires ApplyAction(env, w, account, recipient, Withdraw(coin)).Ok?
    requires coin.amount == w.ledger.AssetOf(account, coin.denom)
    ensures var after := ApplyAction(env, w, account, recipient, Withdraw(coin)).value.world;
            var p := QueryPosition(after.ledger, after.lender, env.prices, account);
            && (p.Ok? ==> forall c :: c in p.value.coins ==> c.denom != coin.denom)
            && (p.Ok? ==> forall d :: d != coin.denom && w.ledger.AssetOf(account, d) > 0 ==>
                  exists c :: c in p.value.coins && c.denom == d && c.amount == w.ledger.AssetOf(account, d))
  {
    var after := ApplyAction(env, w, account, recipient, Withdraw(coin)).value.world;
    forall d | d != coin.denom
      ensures after.ledger.AssetOf(account, d) == w.ledger.AssetOf(account, d)
    {
      var key := (account, coin.denom);
      assert (account, d) in after.ledger.assets - {key} <==> (account, d) in w.ledger.assets - {key};
    }
  }

  /** A deposit shows in the account's position with the grown balance. */
  lemma DepositShowsInPosition(env: Env, w: World, account: AccountId, recipient: Addr, coin: Coin)
    requires ApplyAction(env, w, account, recipient, Deposit(coin)).Ok?
    ensures var after := ApplyAction(env, w, account, recipient, Deposit(coin)).value.world;
            var p := QueryPosition(after.ledger, after.lender, env.prices, account);
            p.Ok? ==> exists c :: c in p.value.coins && c.denom == coin.denom
                                  && c.amount == w.ledger.AssetOf(account, coin.denom) + coin.amount
  {
  }

  /** Every debt-share holding of the account counts toward its debt value,
      whether or not the registry still lists the denom. */
  lemma EveryDebtCounts(env: Env, w: World, account: AccountId, denom: Denom)
    requires HealthOf(env, w, account).Ok?
    requires w.ledger.SharesOf(account, denom) > 0
    ensures var p := QueryPosition(w.ledger, w.lender, env.prices, account).value;
            exists e :: && e in p.debt && e.denom == denom && e.shares == w.ledger.SharesOf(account, denom)
                        && e.value <= HealthOf(env, w, account).value.totalDebtValue
  {
    var p := QueryPosition(w.ledger, w.lender, env.prices, account).value;
    var e :| e in p.debt && e.denom == denom;
    SumDebtValuesCovers(p.debt, e);
  }

  /** Submit a batch for `account`, whose owner is `owner`, as `sender`.
      Only the owner may submit. On success the batch's world and its
      messages, in action order, are committed. */
  function UpdateCreditAccount(env: Env, w: World, account: AccountId, owner: Addr, sender: Addr, actions: seq<Action>): (r: Result<Applied, ContractError>)
    ensures sender != owner ==> r == Err(NotTokenOwner(sender, account))
    ensures sender == owner && ApplyActions(env, w, account, owner, actions).Err? ==>
              r == Err(ApplyActions(env, w, account, owner, actions).error)
    ensures r.Ok? ==>
              && sender == owner
              && ApplyActions(env, w, account, owner, actions) == Ok(r.value)
              && HealthOf(env, r.value.world, account).Ok?
              && !HealthOf(env, r.value.world, account).value.aboveMaxLtv
    ensures sender == owner && ApplyActions(env, w, account, owner, actions).Ok? ==>
              var after := ApplyActions(env, w, account, owner, actions).value.world;
              var h := HealthOf(env, after, account);
              && (h.Err? ==> r == Err(h.error))
              && (h.Ok? && h.value.aboveMaxLtv ==> r == Err(AboveMaxLTV(account, h.value.maxLtvHealthFactor.value)))
              && (h.Ok? && !h.value.aboveMaxLtv ==> r.Ok?)
  {
    if sender != owner then Err(NotTokenOwner(sender, account))
    else
      var applied :- ApplyActions(env, w, account, owner, actions);
      var health :- HealthOf(env, applied.world, account);
      if health.aboveMaxLtv then Err(AboveMaxLTV(account, health.maxLtvHealthFactor.value))
      else Ok(applied)
  }

  /** The world after the batch: the committed world on success, the
      world before the batch on any failure. Only the owner can change
      anything, a changed world is within the max LTV, and no other
      account's balances or shares ever change. */
  function Execute(env: Env, w: World, account: AccountId, owner: Addr, sender: Addr, actions: seq<Action>): (r: World)
    ensures sender != owner ==> r == w
    ensures r == w || (HealthOf(env, r, account).Ok? && !HealthOf(env, r, account).value.aboveMaxLtv)
    ensures r == w || (ApplyActions(env, w, account, owner, actions).Ok?
                       && r == ApplyActions(env, w, account, owner, actions).value.world)
    ensures OthersUntouched(w.ledger, r.ledger, account)
  {
    var u := UpdateCreditAccount(env, w, account, owner, sender, actions);
    if u.Ok? then u.value.world else w
  }

  // -----------------------------------------------------------------------
  // Properties of batches.

  /** A batch is all-or-nothing: it either leaves the world exactly as it
      was, or it commits the world reached by applying every action, and
      that world is within the max LTV. */
  lemma AllOrNothing(env: Env, w: World, account: AccountId, owner: Addr, sender: Addr, actions: seq<Action>)
    ensures var after := Execute(env, w, account, owner, sender, actions);
            || (after == w && UpdateCreditAccount(env, w, account, owner, sender, actions).Err?)
            || (&& ApplyActions(env, w, account, owner, actions).Ok?
                && after == ApplyActions(env, w, account, owner, actions).value.world
                && HealthOf(env, after, account).Ok?
                && !HealthOf(env, after, account).value.aboveMaxLtv)
  {
  }

  /** A non-owner's batch changes nothing. */
  lemma NonOwnerChangesNothing(env: Env, w: World, account: AccountId, owner: Addr, sender: Addr, actions: seq<Action>)
    requires sender != owner
    ensures UpdateCreditAccount(env, w, account, owner, sender, actions) == Err(NotTokenOwner(sender, account))
    ensures Execute(env, w, account, owner, sender, actions) == w
  {
  }

  /** Actions run in order: applying a batch split in two is applying the
      first part, then the second part on its result, with the messages
      concatenated. */
  lemma {:induction false} ApplyActionsAppend(env: Env, w: World, account: AccountId, recipient: Addr, xs: seq<Action>, ys: seq<Action>)
    ensures ApplyActions(env, w, account, recipient, xs + ys) ==
              match ApplyActions(env, w, account, recipient, xs)
              case Err(e) => Err(e)
              case Ok(a) =>
                match ApplyActions(env, a.world, account, recipient, ys)
                case Err(e) => Err(e)
                case Ok(b) => Ok(Applied(b.world, a.msgs + b.msgs))
    decreases |xs|
  {
    if |xs| == 0 {
      assert xs + ys == ys;
      match ApplyActions(env, w, account, recipient, ys)
      case Err(e) =>
      case Ok(b) => assert [] + b.msgs == b.msgs;
    } else {
      assert (xs + ys)[0] == xs[0];
      assert (xs + ys)[1..] == xs[1..] + ys;
      match ApplyAction(env, w, account, recipient, xs[0])
      case Err(e) =>
      case Ok(first) =>
        ApplyActionsAppend(env, first.world, account, recipient, xs[1..], ys);
        match ApplyActions(env, first.world, account, recipient, xs[1..])
        case Err(e) =>
        case Ok(a) =>
          match ApplyActions(env, a.world, account, recipient, ys)
          case Err(e) =>
          case Ok(b) => assert first.msgs + (a.msgs + b.msgs) == (first.msgs + a.msgs) + b.msgs;
    }
  }

  /** Every action of a batch keeps the share ledger consistent, for the
      listed accounts, when the acting account is one of them. */
  lemma {:induction false} ActionPreservesInvariants(env: Env, w: World, accounts: seq<AccountId>, account: AccountId, recipient: Addr, action: Action)
    requires SharesConserved(w.ledger, accounts) && NoZeroBalances(w.ledger)
    requires account in accounts
    requires ApplyAction(env, w, account, recipient, action).Ok?
    ensures SharesConserved(ApplyAction(env, w, account, recipient, action).value.world.ledger, accounts)
    ensures NoZeroBalances(ApplyAction(env, w, account, recipient, action).value.world.ledger)
  {
    match action
    case Deposit(coin) =>
      Balances.BalancesStayPositive(env.registry, w.ledger, account, recipient, coin);
      SameSharesConserved(w.ledger, Balances.Deposit(env.registry, w.ledger, account, coin).value, accounts);
    case Withdraw(coin) =>
      Balances.BalancesStayPositive(env.registry, w.ledger, account, recipient, coin);
      SameSharesConserved(w.ledger, Balances.Withdraw(env.registry, w.ledger, account, recipient, coin).value.ledger, accounts);
    case Borrow(coin) =>
      Borrow.BorrowPreservesConservation(env.registry, w.ledger, accounts, w.lender, account, coin);
      Borrow.BorrowKeepsBalancesPositive(env.registry, w.ledger, w.lender, account, coin);
  }

  lemma SameSharesConserved(l: Ledger, l': Ledger, accounts: seq<AccountId>)
    requires SharesConserved(l, accounts)
    requires l'.debtShares == l.debtShares && l'.totalDebtShares == l.totalDebtShares
    ensures SharesConserved(l', accounts)
  {
  }

  lemma {:induction false} ActionsPreserveInvariants(env: Env, w: World, accounts: seq<AccountId>, account: AccountId, recipient: Addr, actions: seq<Action>)
    requires SharesConserved(w.ledger, accounts) && NoZeroBalances(w.ledger)
    requires account in accounts
    requires ApplyActions(env, w, account, recipient, actions).Ok?
    ensures SharesConserved(ApplyActions(env, w, account, recipient, actions).value.world.ledger, accounts)
    ensures NoZeroBalances(ApplyActions(env, w, account, recipient, actions).value.world.ledger)
    decreases |actions|
  {
    if |actions| > 0 {
      var first := ApplyAction(env, w, account, recipient, actions[0]).value;
      ActionPreservesInvariants(env, w, accounts, account, recipient, actions[0]);
      ActionsPreserveInvariants(env, first.world, accounts, account, recipient, actions[1..]);
    }
  }

  /** Conservation: after any batch, committed or not, every denom's debt
      shares held by the accounts add up to the stored total, and no zero
      balance is stored. */
  lemma {:induction false} BatchPreservesInvariants(env: Env, w: World, accounts: seq<AccountId>, account: AccountId, owner: Addr, sender: Addr, actions: seq<Action>)
    requires SharesConserved(w.ledger, accounts) && NoZeroBalances(w.ledger)
    requires account in accounts
    ensures SharesConserved(Execute(env, w, account, owner, sender, actions).ledger, accounts)
    ensures NoZeroBalances(Execute(env, w, account, owner, sender, actions).ledger)
  {
    if UpdateCreditAccount(env, w, account, owner, sender, actions).Ok? {
      ActionsPreserveInvariants(env, w, accounts, account, owner, actions);
    }
  }
}

=== FILE: borrow.dfy ===
/** The borrow engine: turns a borrowed coin into debt shares measured
    against the lender's pooled debt, and books the shares and the borrowed
    funds on the account. */
module Borrow {
  import opened Types
  import Uint
  import opened Ledger
  import opened DebtShares
  import opened Registry
  import opened RedBank
  import Decimals

  datatype BorrowResponse = BorrowResponse(ledger: Ledger, sharesAdded: Uint128, msg: Msg)

  /** An overflow on a stored counter surfaces as a standard error. */
  function StoreOverflow(e: OverflowError): ContractError {
    Std(StdOverflow(e))
  }

  /** The stored total shares of a denom, absent when never written. */
  function StoredTotal(l: Ledger, denom: Denom): (r: Option<Uint128>)
    ensures r.Some? <==> denom in l.totalDebtShares
    ensures r.Some? ==> r.value == l.totalDebtShares[denom]
  {
    if denom in l.totalDebtShares then Some(l.totalDebtShares[denom]) else None
  }

  /** Borrow `coin` for `account`. A zero amount is refused before any
      lookup; then the denom must be whitelisted; then the minted shares
      are computed from the lender's reported debt; then the denom's total
      shares, the account's shares and the account's coin balance grow,
      each by checked addition. The lender is asked to send the coin. */
  function Borrow(registry: Registry, l: Ledger, lender: Lender, account: AccountId, coin: Coin): (r: Result<BorrowResponse, ContractError>)
    ensures coin.amount == 0 ==> r == Err(NoAmount)
    ensures coin.amount > 0 && !IsWhitelisted(registry, coin.denom) ==> r == Err(NotWhitelisted(coin.denom))
    ensures coin.amount > 0 && IsWhitelisted(registry, coin.denom) ==>
              var minted := SharesForBorrow(StoredTotal(l, coin.denom), lender.QueryDebt(coin.denom), coin.amount);
              && (minted.Err? ==> r == Err(minted.error))
              && (minted.Ok? && l.TotalSharesOf(coin.denom) + minted.value >= UINT128_LIMIT ==>
                    r == Err(Std(StdOverflow(OverflowError(Add, l.TotalSharesOf(coin.denom), minted.value)))))
              && (minted.Ok? && l.TotalSharesOf(coin.denom) + minted.value < UINT128_LIMIT
                    && l.SharesOf(account, coin.denom) + minted.value >= UINT128_LIMIT ==>
                    r == Err(Std(StdOverflow(OverflowError(Add, l.SharesOf(account, coin.denom), minted.value)))))
              && (minted.Ok? && l.TotalSharesOf(coin.denom) + minted.value < UINT128_LIMIT
                    && l.SharesOf(account, coin.denom) + minted.value < UINT128_LIMIT
                    && l.AssetOf(account, coin.denom) + coin.amount >= UINT128_LIMIT ==>
                    r == Err(Std(StdOverflow(OverflowError(Add, l.AssetOf(account, coin.denom), coin.amount)))))
              && (minted.Ok? ==> (r.Ok? <==>
                    && l.TotalSharesOf(coin.denom) + minted.value < UINT128_LIMIT
                    && l.SharesOf(account, coin.denom) + minted.value < UINT128_LIMIT
                    && l.AssetOf(account, coin.denom) + coin.amount < UINT128_LIMIT))
              && (r.Ok? ==> r.value.sharesAdded == minted.value)
    ensures r.Ok? ==>
              var l' := r.value.ledger;
              var key := (account, coin.denom);
              && l'.TotalSharesOf(coin.denom) == l.TotalSharesOf(coin.denom) + r.value.sharesAdded
              && l'.SharesOf(account, coin.denom) == l.SharesOf(account, coin.denom) + r.value.sharesAdded
              && l'.AssetOf(account, coin.denom) == l.AssetOf(account, coin.denom) + coin.amount
              && key in l'.assets && key in l'.debtShares && coin.denom in l'.totalDebtShares
              && l'.assets - {key} == l.assets - {key}
              && l'.debtShares - {key} == l.debtShares - {key}
              && l'.totalDebtShares - {coin.denom} == l.totalDebtShares - {coin.denom}
              && r.value.msg == LenderBorrow(coin)
  {
    if coin.amount == 0 then Err(NoAmount)
    else
      var _ :- AssertWhitelisted(registry, coin.denom);
      var key := (account, coin.denom);
      var added :- SharesForBorrow(StoredTotal(l, coin.denom), lender.QueryDebt(coin.denom), coin.amount);
      var total :- Uint.CheckedAdd(l.TotalSharesOf(coin.denom), added).MapErr(StoreOverflow);
      var shares :- Uint.CheckedAdd(l.SharesOf(account, coin.denom), added).MapErr(StoreOverflow);
      var amount :- Uint.CheckedAdd(l.AssetOf(account, coin.denom), coin.amount).MapErr(StoreOverflow);
      var l' := Ledger(
        l.assets[key := amount],
        l.debtShares[key := shares],
        l.totalDebtShares[coin.denom := total]);
      Ok(BorrowResponse(l', added, LenderBorrow(coin)))
  }

  /** A borrow keeps the share ledger consistent: the account's shares and
      the denom's total grow by the same amount. */
  lemma BorrowPreservesConservation(registry: Registry, l: Ledger, accounts: seq<AccountId>, lender: Lender, account: AccountId, coin: Coin)
    requires SharesConserved(l, accounts)
    requires account in accounts
    requires Borrow(registry, l, lender, account, coin).Ok?
    ensures SharesConserved(Borrow(registry, l, lender, account, coin).value.ledger, accounts)
  {
    var r := Borrow(registry, l, lender, account, coin).value;
    MintPreservesConservation(l, accounts, account, coin.denom, r.sharesAdded);
    assert r.ledger.debtShares == Mint(l, account, coin.denom, r.sharesAdded).debtShares;
    assert r.ledger.totalDebtShares == Mint(l, account, coin.denom, r.sharesAdded).totalDebtShares;
  }

  /** A borrow stores a positive coin balance, so no zero balance appears. */
  lemma BorrowKeepsBalancesPositive(registry: Registry, l: Ledger, lender: Lender, account: AccountId, coin: Coin)
    requires NoZeroBalances(l)
    requires Borrow(registry, l, lender, account, coin).Ok?
    ensures NoZeroBalances(Borrow(registry, l, lender, account, coin).value.ledger)
  {
  }

  /** The first borrow of a denom, into an empty pool, mints exactly one
      million shares per coin. */
  lemma FirstBorrowSeedsShares(registry: Registry, l: Ledger, lender: Lender, account: AccountId, coin: Coin)
    requires lender.QueryDebt(coin.denom) == 0
    requires Borrow(registry, l, lender, account, coin).Ok?
    ensures Borrow(registry, l, lender, account, coin).value.sharesAdded == coin.amount * DEFAULT_DEBT_SHARES_PER_COIN_BORROWED
  {
  }

  /** Into a non-empty pool, the minted shares are the borrowed fraction of
      the stored total, rounded down: never more than the exact fraction,
      and short of it by less than one share. */
  lemma ProportionalBorrow(registry: Registry, l: Ledger, lender: Lender, account: AccountId, coin: Coin)
    requires lender.QueryDebt(coin.denom) > 0
    requires Borrow(registry, l, lender, account, coin).Ok?
    ensures var added := Borrow(registry, l, lender, account, coin).value.sharesAdded;
            var pooled := lender.QueryDebt(coin.denom);
            && coin.denom in l.totalDebtShares
            && added == l.TotalSharesOf(coin.denom) * coin.amount / pooled
            && added * pooled <= l.TotalSharesOf(coin.denom) * coin.amount < (added + 1) * pooled
  {
    var added := Borrow(registry, l, lender, account, coin).value.sharesAdded;
    var pooled := lender.QueryDebt(coin.denom);
    var exact := l.TotalSharesOf(coin.denom) * coin.amount;
    Uint.FloorDivBounds(exact, pooled);
    Decimals.UniqueQuotient(added, exact / pooled, pooled, exact);
  }

  /** A borrow can mint zero shares: when the pooled debt exceeds the
      denom's total shares times the amount, the account receives the
      coins and takes on no debt shares. */
  lemma BorrowCanMintNothing(registry: Registry, l: Ledger, lender: Lender, account: AccountId, coin: Coin)
    requires coin.amount > 0 && IsWhitelisted(registry, coin.denom)
    requires coin.denom in l.totalDebtShares
    requires l.TotalSharesOf(coin.denom) * coin.amount < lender.QueryDebt(coin.denom)
    requires l.AssetOf(account, coin.denom) + coin.amount < UINT128_LIMIT
    ensures Borrow(registry, l, lender, account, coin).Ok?
    ensures var r := Borrow(registry, l, lender, account, coin).value;
            && r.sharesAdded == 0
            && r.ledger.SharesOf(account, coin.denom) == l.SharesOf(account, coin.denom)
            && r.ledger.TotalSharesOf(coin.denom) == l.TotalSharesOf(coin.denom)
            && r.ledger.AssetOf(account, coin.denom) == l.AssetOf(account, coin.denom) + coin.amount
  {
    var total := l.TotalSharesOf(coin.denom);
    var pooled := lender.QueryDebt(coin.denom);
    assert StoredTotal(l, coin.denom) == Some(total);
    MintsNothing(total, pooled, coin.amount);
  }
}

=== FILE: config.dfy ===
/** The credit manager's configuration and its owner-only update. An update
    names each field optionally: a given field replaces the stored value,
    an omitted one keeps it. The allowed coins and vaults are part of the
    configuration here, as the update sets them together with the rest; each
    is stored as a set, so a list given twice the same entry holds it once,
    and a new list replaces the old one whole. */
module Config {
  import opened Types
  import opened Decimals

  datatype Config = Config(
    owner: Addr,
    accountNft: Option<Addr>,
    allowedCoins: set<Denom>,
    allowedVaults: set<Addr>,
    redBank: Addr,
    oracle: Addr,
    swapper: Addr,
    maxLiquidationBonus: Decimal,
    maxCloseFactor: Decimal)

  datatype ConfigUpdates = ConfigUpdates(
    owner: Option<Addr>,
    accountNft: Option<Addr>,
    allowedCoins: Option<seq<Denom>>,
    allowedVaults: Option<seq<Addr>>,
    redBank: Option<Addr>,
    oracle: Option<Addr>,
    swapper: Option<Addr>,
    maxLiquidationBonus: Option<Decimal>,
    maxCloseFactor: Option<Decimal>)

  const NO_UPDATES: ConfigUpdates := ConfigUpdates(None, None, None, None, None, None, None, None, None)

  /** A given value replaces, an omitted one keeps. */
  function Pick<T>(update: Option<T>, current: T): (r: T)
    ensures update.Some? ==> r == update.value
    ensures update.None? ==> r == current
  {
    match update
    case Some(v) => v
    case None => current
  }

  /** The account NFT is itself optional: a given address is set, an
      omitted one keeps whatever was stored, set or not. */
  function PickNft(update: Option<Addr>, current: Option<Addr>): (r: Option<Addr>)
    ensures update.Some? ==> r == update
    ensures update.None? ==> r == current
  {
    if update.Some? then update else current
  }

  /** A given allow-list replaces the stored set by its entries; an
      omitted one keeps the stored set. */
  function PickSet<T(!new)>(update: Option<seq<T>>, current: set<T>): (r: set<T>)
    ensures update.Some? ==> forall x :: x in r <==> x in update.value
    ensures update.None? ==> r == current
  {
    match update
    case Some(xs) => set x | x in xs
    case None => current
  }

  function Merge(c: Config, u: ConfigUpdates): Config
  {
    Config(
      Pick(u.owner, c.owner),
      PickNft(u.accountNft, c.accountNft),
      PickSet(u.allowedCoins, c.allowedCoins),
      PickSet(u.allowedVaults, c.allowedVaults),
      Pick(u.redBank, c.redBank),
      Pick(u.oracle, c.oracle),
      Pick(u.swapper, c.swapper),
      Pick(u.maxLiquidationBonus, c.maxLiquidationBonus),
      Pick(u.maxCloseFactor, c.maxCloseFactor))
  }

  /** Update the configuration as `sender`; anyone but the owner is refused
      and the configuration stays as it was. */
  function UpdateConfig(c: Config, sender: Addr, u: ConfigUpdates): (r: Result<Config, ContractError>)
    ensures sender != c.owner ==> r == Err(Unauthorized(sender, "update config"))
    ensures r.Ok? <==> sender == c.owner
    ensures r.Ok? ==>
              && r.value.owner == Pick(u.owner, c.owner)
              && r.value.accountNft == (if u.accountNft.Some? then u.accountNft else c.accountNft)
              && (u.allowedCoins.Some? ==> forall d :: d in r.value.allowedCoins <==> d in u.allowedCoins.value)
              && (u.allowedCoins.None? ==> r.value.allowedCoins == c.allowedCoins)
              && (u.allowedVaults.Some? ==> forall v :: v in r.value.allowedVaults <==> v in u.allowedVaults.value)
              && (u.allowedVaults.None? ==> r.value.allowedVaults == c.allowedVaults)
              && (u.redBank.Some? ==> r.value.redBank == u.redBank.value)
              && (u.redBank.None? ==> r.value.redBank == c.redBank)
              && (u.oracle.Some? ==> r.value.oracle == u.oracle.value)
              && (u.oracle.None? ==> r.value.oracle == c.oracle)
              && (u.swapper.Some? ==> r.value.swapper == u.swapper.value)
              && (u.swapper.None? ==> r.value.swapper == c.swapper)
              && (u.maxLiquidationBonus.Some? ==> r.value.maxLiquidationBonus == u.maxLiquidationBonus.value)
              && (u.maxLiquidationBonus.None? ==> r.value.maxLiquidationBonus == c.maxLiquidationBonus)
              && (u.maxCloseFactor.Some? ==> r.value.maxCloseFactor == u.maxCloseFactor.value)
              && (u.maxCloseFactor.None? ==> r.value.maxCloseFactor == c.maxCloseFactor)
  {
    if sender != c.owner then Err(Unauthorized(sender, "update config"))
    else Ok(Merge(c, u))
  }

  /** An update that names nothing leaves the configuration as it was. */
  lemma NothingPassedChangesNothing(c: Config)
    ensures UpdateConfig(c, c.owner, NO_UPDATES) == Ok(c)
  {
  }

  /** An update naming every field sets the configuration to exactly the
      given values, whatever was stored before; the allow-lists hold exactly
      the entries given. */
  lemma FullUpdateReplacesAll(c: Config, owner: Addr, nft: Addr, coins: seq<Denom>, vaults: seq<Addr>,
                              redBank: Addr, oracle: Addr, swapper: Addr, bonus: Decimal, closeFactor: Decimal)
    ensures var u := ConfigUpdates(Some(owner), Some(nft), Some(coins), Some(vaults), Some(redBank),
                                   Some(oracle), Some(swapper), Some(bonus), Some(closeFactor));
            var r := UpdateConfig(c, c.owner, u);
            && r.Ok?
            && r.value.allowedCoins == (set d | d in coins)
            && r.value.allowedVaults == (set v | v in vaults)
            && r.value == Config(owner, Some(nft), r.value.allowedCoins, r.value.allowedVaults, redBank, oracle, swapper, bonus, closeFactor)
  {
  }

  /** An allow-list given with a repeated entry is stored as if each entry
      were given once. */
  lemma RepeatedEntriesStoredOnce(c: Config, u: ConfigUpdates, coins: seq<Denom>)
    requires u.allowedCoins == Some(coins + coins)
    ensures var r := UpdateConfig(c, c.owner, u);
            r.Ok? && r.value == UpdateConfig(c, c.owner, u.(allowedCoins := Some(coins))).value
  {
  }

  /** Applying the same update twice is applying it once. */
  lemma UpdateIdempotent(c: Config, u: ConfigUpdates)
    ensures Merge(Merge(c, u), u) == Merge(c, u)
  {
  }

  /** Two updates in a row, the later one winning where both name a field. */
  function Then(first: ConfigUpdates, second: ConfigUpdates): ConfigUpdates
  {
    ConfigUpdates(
      if second.owner.Some? then second.owner else first.owner,
      if second.accountNft.Some? then second.accountNft else first.accountNft,
      if second.allowedCoins.Some? then second.allowedCoins else first.allowedCoins,
      if second.allowedVaults.Some? then second.allowedVaults else first.allowedVaults,
      if second.redBank.Some? then second.redBank else first.redBank,
      if second.oracle.Some? then second.oracle else first.oracle,
      if second.swapper.Some? then second.swapper else first.swapper,
      if second.maxLiquidationBonus.Some? then second.maxLiquidationBonus else first.maxLiquidationBonus,
      if second.maxCloseFactor.Some? then second.maxCloseFactor else first.maxCloseFactor)
  }

  /** Merging two updates one after the other is merging their combination,
      so no field of the first survives where the second names it. */
  lemma UpdatesCompose(c: Config, first: ConfigUpdates, second: ConfigUpdates)
    ensures Merge(Merge(c, first), second) == Merge(c, Then(first, second))
  {
  }

  /** Once the owner hands ownership over in an update, the old owner can
      no longer update the configuration. */
  lemma OwnerHandOver(c: Config, u: ConfigUpdates)
    requires u.owner.Some? && u.owner.value != c.owner
    ensures UpdateConfig(c, c.owner, u).Ok?
    ensures var c' := UpdateConfig(c, c.owner, u).value;
            && UpdateConfig(c', c.owner, NO_UPDATES).Err?
            && UpdateConfig(c', u.owner.value, NO_UPDATES) == Ok(c')
  {
  }
}

=== FILE: decimal.dfy ===
/** 18-digit fixed-point decimals. A `Decimal` is its count of atomics:
    the value it stands for is `atomics / 10^18`. Products and quotients
    round down, as the chain's `Decimal` does. */
module Decimals {

  const FRACTIONAL: nat := 1_000_000_000_000_000_000

  type Decimal = nat

  /** The decimal 1.0. */
  const ONE: Decimal := FRACTIONAL

  /** An integer amount as a decimal with no fractional digits. */
  function FromInt(n: nat): (r: Decimal)
    ensures r / FRACTIONAL == n && r % FRACTIONAL == 0
  {
    n * FRACTIONAL
  }

  /** Fixed-point product, rounded down. */
  function Mul(a: Decimal, b: Decimal): (r: Decimal)
    ensures r * FRACTIONAL <= a * b < (r + 1) * FRACTIONAL
  {
    a * b / FRACTIONAL
  }

  /** Fixed-point quotient, rounded down; the divisor must be non-zero. */
  function Div(a: Decimal, b: Decimal): (r: Decimal)
    requires b > 0
    ensures r * b <= a * FRACTIONAL < (r + 1) * b
  {
    a * FRACTIONAL / b
  }

  /** A price times a whole number of coins is exact: no digit is lost. */
  lemma {:induction false} MulByInt(p: Decimal, n: nat)
    ensures Mul(p, FromInt(n)) == p * n
  {
    assert p * FromInt(n) == (p * n) * FRACTIONAL;
    DivExact(p * n, FRACTIONAL);
  }

  lemma DivExact(x: nat, d: nat)
    requires d > 0
    ensures (x * d) / d == x
  {
    var q := (x * d) / d;
    FloorBracket(x * d, d);
    assert x * d <= x * d < (x + 1) * d;
    UniqueQuotient(q, x, d, x * d);
  }

  lemma FloorBracket(n: nat, d: nat)
    requires d > 0
    ensures (n / d) * d <= n < (n / d + 1) * d
  {
  }

  /** A quotient below one exactly when the dividend is below the divisor. */
  lemma {:induction false} DivBelowOne(a: Decimal, b: Decimal)
    requires b > 0
    ensures Div(a, b) < ONE <==> a < b
  {
    var r := Div(a, b);
    assert r * b <= a * FRACTIONAL < (r + 1) * b;
    if a < b {
      MulStrictMonotone(a, b, FRACTIONAL);
      if r >= FRACTIONAL {
        MulMonotone(FRACTIONAL, r, b);
        assert false;
      }
    } else {
      MulMonotone(b, a, FRACTIONAL);
      if r < FRACTIONAL {
        MulMonotone(r + 1, FRACTIONAL, b);
        assert false;
      }
    }
  }

  /** Scaling both sides of a quotient by the same positive factor leaves
      the fixed-point quotient unchanged. */
  lemma {:induction false} DivScaled(a: nat, b: nat, k: nat)
    requires b > 0 && k > 0
    ensures Div(a * k, b * k) == Div(a, b)
  {
    var q := Div(a, b);
    var q' := Div(a * k, b * k);
    assert q * b <= a * FRACTIONAL < (q + 1) * b;
    assert q' * (b * k) <= (a * k) * FRACTIONAL < (q' + 1) * (b * k);
    assert (q * b) * k <= (a * FRACTIONAL) * k by {
      MulMonotone(q * b, a * FRACTIONAL, k);
    }
    assert (a * FRACTIONAL) * k < ((q + 1) * b) * k by {
      MulStrictMonotone(a * FRACTIONAL, (q + 1) * b, k);
    }
    assert q * (b * k) <= (a * k) * FRACTIONAL < (q + 1) * (b * k);
    UniqueQuotient(q, q', b * k, (a * k) * FRACTIONAL);
  }

  /** Scaling by a ratio of at most one never increases a value. */
  lemma {:induction false} MulAtMostOne(a: Decimal, b: Decimal)
    ensures b <= ONE ==> Mul(a, b) <= a
  {
    if b <= ONE {
      var r := Mul(a, b);
      MulMonotone(b, ONE, a);
      assert r * FRACTIONAL <= a * FRACTIONAL;
    }
  }

  lemma MulMonotone(x: nat, y: nat, k: nat)
    requires x <= y
    ensures x * k <= y * k
  {
  }

  lemma MulStrictMonotone(x: nat, y: nat, k: nat)
    requires x < y && k > 0
    ensures x * k < y * k
  {
  }

  /** Two numbers that both satisfy the floor-division bracket are equal. */
  lemma UniqueQuotient(q: nat, q': nat, d: nat, n: nat)
    requires d > 0
    requires q * d <= n < (q + 1) * d
    requires q' * d <= n < (q' + 1) * d
    ensures q == q'
  {
    if q < q' {
      assert (q + 1) * d <= q' * d by { MulMonotone(q + 1, q', d); }
    } else if q' < q {
      assert (q' + 1) * d <= q * d by { MulMonotone(q' + 1, q, d); }
    }
  }
}

=== FILE: health.dfy ===
/** The position valuator and the health checker. A position lists, for one
    account, each non-zero coin balance and each non-zero debt-share
    holding with its price and value. The health factor weighs the
    collateral value by each denom's max LTV and divides by the debt value. */
module Health {
  import opened Types
  import opened Decimals
  import opened Ledger
  import opened Registry
  import opened RedBank
  import DebtShares
  import MockOracle

  datatype CoinValue = CoinValue(denom: Denom, amount: Uint128, price: Decimal, value: Decimal)

  datatype DebtSharesValue = DebtSharesValue(denom: Denom, shares: Uint128, amount: Uint128, price: Decimal, value: Decimal)

  datatype Position = Position(accountId: AccountId, coins: seq<CoinValue>, debt: seq<DebtSharesValue>)

  datatype HealthResponse = HealthResponse(
    totalCollateralValue: Decimal,
    totalDebtValue: Decimal,
    maxLtvAdjustedCollateral: Decimal,
    maxLtvHealthFactor: Option<Decimal>,
    aboveMaxLtv: bool)

  /** The price of a denom, a missing price failing the whole valuation. */
  function PriceOf(prices: MockOracle.Prices, denom: Denom): (r: Result<Decimal, ContractError>)
    ensures r.Ok? <==> denom in prices
    ensures r.Ok? ==> r.value == prices[denom]
  {
    MockOracle.QueryAssetPrice(prices, denom).MapErr(e => Std(e))
  }

  /** `c` is a non-zero coin balance of `account` with its price and its
      value, price times amount. */
  ghost predicate ValuesCoin(c: CoinValue, l: Ledger, prices: MockOracle.Prices, account: AccountId)
  {
    && c.amount > 0
    && c.amount == l.AssetOf(account, c.denom)
    && c.denom in prices && c.price == prices[c.denom]
    && c.value == c.price * c.amount
  }

  /** `e` is a non-zero debt-share holding of `account` with the debt it
      stands for (its proportion of the pooled debt, rounded down), the
      price and the value, price times that debt. */
  ghost predicate ValuesDebt(e: DebtSharesValue, l: Ledger, lender: Lender, prices: MockOracle.Prices, account: AccountId)
  {
    && e.shares > 0
    && e.shares == l.SharesOf(account, e.denom)
    && DebtShares.DebtForShares(lender.QueryDebt(e.denom), e.shares, l.TotalSharesOf(e.denom)) == Ok(e.amount)
    && e.denom in prices && e.price == prices[e.denom]
    && e.value == e.price * e.amount
  }

  /** `coins` lists each non-zero coin balance of `account` exactly once. */
  ghost predicate ListsCoins(coins: seq<CoinValue>, l: Ledger, prices: MockOracle.Prices, account: AccountId)
  {
    && (forall c :: c in coins ==> ValuesCoin(c, l, prices, account))
    && (forall d :: l.AssetOf(account, d) > 0 ==> exists c :: c in coins && c.denom == d)
    && (forall i, j :: 0 <= i < j < |coins| ==> coins[i].denom != coins[j].denom)
  }

  /** `debt` lists each non-zero debt-share holding of `account` exactly
      once. */
  ghost predicate ListsDebts(debt: seq<DebtSharesValue>, l: Ledger, lender: Lender, prices: MockOracle.Prices, account: AccountId)
  {
    && (forall e :: e in debt ==> ValuesDebt(e, l, lender, prices, account))
    && (forall d :: l.SharesOf(account, d) > 0 ==> exists e :: e in debt && e.denom == d)
    && (forall i, j :: 0 <= i < j < |debt| ==> debt[i].denom != debt[j].denom)
  }

  /** The debt a holding stands for can be computed: the pool has shares
      and the holding's proportion of the pooled debt fits in 128 bits. */
  ghost predicate OwedComputable(l: Ledger, lender: Lender, account: AccountId, denom: Denom)
  {
    DebtShares.DebtForShares(lender.QueryDebt(denom), l.SharesOf(account, denom), l.TotalSharesOf(denom)).Ok?
  }

  /** The non-zero balance of `account` in `denom`, valued at price times
      amount. */
  function ValueCoin(denom: Denom, l: Ledger, prices: MockOracle.Prices, account: AccountId): (r: Result<CoinValue, ContractError>)
    requires l.AssetOf(account, denom) > 0
    ensures r.Ok? <==> denom in prices
    ensures r.Ok? ==> r.value.denom == denom && ValuesCoin(r.value, l, prices, account)
  {
    var amount := l.AssetOf(account, denom);
    if denom !in prices then Err(Std(NotFound("Decimal")))
    else
      var price := prices[denom];
      MulByInt(price, amount);
      Ok(CoinValue(denom, amount, price, Decimals.Mul(price, FromInt(amount))))
  }

  /** The non-zero balances of `account` in `denoms`, valued in that order;
      the first denom without a price fails the valuation. */
  function ValueCoinsOf(denoms: seq<Denom>, l: Ledger, prices: MockOracle.Prices, account: AccountId): (r: Result<seq<CoinValue>, ContractError>)
    requires forall i :: 0 <= i < |denoms| ==> l.AssetOf(account, denoms[i]) > 0
    ensures r.Ok? <==> forall i :: 0 <= i < |denoms| ==> denoms[i] in prices
    ensures r.Ok? ==> |r.value| == |denoms|
    ensures r.Ok? ==> forall i :: 0 <= i < |denoms| ==> r.value[i].denom == denoms[i] && ValuesCoin(r.value[i], l, prices, account)
  {
    if |denoms| == 0 then Ok([])
    else
      assert forall i :: 1 <= i < |denoms| ==> denoms[i] == denoms[1..][i - 1];
      var head :- ValueCoin(denoms[0], l, prices, account);
      var rest :- ValueCoinsOf(denoms[1..], l, prices, account);
      Ok([head] + rest)
  }

  /** The account's non-zero coin balances, each valued at price times
      amount; a balance without a price fails the valuation. */
  function ValueCoins(l: Ledger, prices: MockOracle.Prices, account: AccountId): (r: Result<seq<CoinValue>, ContractError>)
    ensures r.Ok? <==> forall d :: l.AssetOf(account, d) > 0 ==> d in prices
    ensures r.Ok? ==> ListsCoins(r.value, l, prices, account)
  {
    var held := HeldDenoms(l.assets, account);
    var denoms := Positive(held, l.assets, account);
    assert forall d :: l.AssetOf(account, d) > 0 <==> d in denoms;
    assert forall i :: 0 <= i < |denoms| ==> denoms[i] in denoms;
    var r := ValueCoinsOf(denoms, l, prices, account);
    if r.Ok? then CoinsListed(r.value, denoms, l, prices, account); r else r
  }

  /** Valuing each of the account's non-zero balances, listed once each,
      lists its coins. */
  lemma CoinsListed(coins: seq<CoinValue>, denoms: seq<Denom>, l: Ledger, prices: MockOracle.Prices, account: AccountId)
    requires Distinct(denoms)
    requires forall d :: l.AssetOf(account, d) > 0 ==> d in denoms
    requires |coins| == |denoms|
    requires forall i :: 0 <= i < |denoms| ==> coins[i].denom == denoms[i] && ValuesCoin(coins[i], l, prices, account)
    ensures ListsCoins(coins, l, prices, account)
  {
    forall d | l.AssetOf(account, d) > 0
      ensures exists c :: c in coins && c.denom == d
    {
      var i :| 0 <= i < |denoms| && denoms[i] == d;
      assert coins[i] in coins;
    }
  }

  /** The non-zero debt-share holding of `account` in `denom`, with the
      debt it stands for valued at price times that debt. */
  function ValueDebt(denom: Denom, l: Ledger, lender: Lender, prices: MockOracle.Prices, account: AccountId): (r: Result<DebtSharesValue, ContractError>)
    requires l.SharesOf(account, denom) > 0
    ensures r.Ok? <==> denom in prices && OwedComputable(l, lender, account, denom)
    ensures r.Ok? ==> r.value.denom == denom && ValuesDebt(r.value, l, lender, prices, account)
  {
    var shares := l.SharesOf(account, denom);
    var owed :- DebtShares.DebtForShares(lender.QueryDebt(denom), shares, l.TotalSharesOf(denom));
    if denom !in prices then Err(Std(NotFound("Decimal")))
    else
      var price := prices[denom];
      MulByInt(price, owed);
      Ok(DebtSharesValue(denom, shares, owed, price, Decimals.Mul(price, FromInt(owed))))
  }

  /** The non-zero debt-share holdings of `account` in `denoms`, valued in
      that order; the first that cannot be valued fails the valuation. */
  function ValueDebtsOf(denoms: seq<Denom>, l: Ledger, lender: Lender, prices: MockOracle.Prices, account: AccountId): (r: Result<seq<DebtSharesValue>, ContractError>)
    requires forall i :: 0 <= i < |denoms| ==> l.SharesOf(account, denoms[i]) > 0
    ensures r.Ok? <==> forall i :: 0 <= i < |denoms| ==> denoms[i] in prices && OwedComputable(l, lender, account, denoms[i])
    ensures r.Ok? ==> |r.value| == |denoms|
    ensures r.Ok? ==> forall i :: 0 <= i < |denoms| ==> r.value[i].denom == denoms[i] && ValuesDebt(r.value[i], l, lender, prices, account)
  {
    if |denoms| == 0 then Ok([])
    else
      assert forall i :: 1 <= i < |denoms| ==> denoms[i] == denoms[1..][i - 1];
      var head :- ValueDebt(denoms[0], l, lender, prices, account);
      var rest :- ValueDebtsOf(denoms[1..], l, lender, prices, account);
      Ok([head] + rest)
  }

  /** Valuing each of the account's non-zero debt-share holdings, listed
      once each, lists its debt. */
  lemma DebtsListed(debt: seq<DebtSharesValue>, denoms: seq<Denom>, l: Ledger, lender: Lender, prices: MockOracle.Prices, account: AccountId)
    requires Distinct(denoms)
    requires forall d :: l.SharesOf(account, d) > 0 ==> d in denoms
    requires |debt| == |denoms|
    requires forall i :: 0 <= i < |denoms| ==> debt[i].denom == denoms[i] && ValuesDebt(debt[i], l, lender, prices, account)
    ensures ListsDebts(debt, l, lender, prices, account)
  {
    forall d | l.SharesOf(account, d) > 0
      ensures exists e :: e in debt && e.denom == d
    {
      var i :| 0 <= i < |denoms| && denoms[i] == d;
      assert debt[i] in debt;
    }
  }

  /** The account's non-zero debt-share holdings, each with the debt it
      stands for valued at price times that debt; a holding without a price
      or whose debt cannot be computed fails the valuation. */
  function ValueDebts(l: Ledger, lender: Lender, prices: MockOracle.Prices, account: AccountId): (r: Result<seq<DebtSharesValue>, ContractError>)
    ensures r.Ok? <==> forall d :: l.SharesOf(account, d) > 0 ==> d in prices && OwedComputable(l, lender, account, d)
    ensures r.Ok? ==> ListsDebts(r.value, l, lender, prices, account)
  {
    var held := HeldDenoms(l.debtShares, account);
    var denoms := Positive(held, l.debtShares, account);
    assert forall d :: l.SharesOf(account, d) > 0 <==> d in denoms;
    assert forall i :: 0 <= i < |denoms| ==> denoms[i] in denoms;
    var r := ValueDebtsOf(denoms, l, lender, prices, account);
    if r.Ok? then DebtsListed(r.value, denoms, l, lender, prices, account); r else r
  }

  /** The position of `account`: every non-zero balance and every non-zero
      debt-share holding it has, each listed once and valued. It fails
      exactly when a holding has no price or its debt cannot be computed. */
  function QueryPosition(l: Ledger, lender: Lender, prices: MockOracle.Prices, account: AccountId): (r: Result<Position, ContractError>)
    ensures r.Ok? <==>
              && (forall d :: l.AssetOf(account, d) > 0 ==> d in prices)
              && (forall d :: l.SharesOf(account, d) > 0 ==> d in prices && OwedComputable(l, lender, account, d))
    ensures r.Ok? ==> r.value.accountId == account
    ensures r.Ok? ==> ListsCoins(r.value.coins, l, prices, account)
    ensures r.Ok? ==> ListsDebts(r.value.debt, l, lender, prices, account)
  {
    var coins :- ValueCoins(l, prices, account);
    var debt :- ValueDebts(l, lender, prices, account);
    Ok(Position(account, coins, debt))
  }

  function SumCoinValues(coins: seq<CoinValue>): Decimal
  {
    if |coins| == 0 then 0 else coins[0].value + SumCoinValues(coins[1..])
  }

  /** Collateral value weighted by each denom's max LTV, rounded down per
      coin. While every max LTV is at most one, the weighted value never
      exceeds the collateral value. */
  function SumAdjusted(registry: Registry, coins: seq<CoinValue>): (r: Decimal)
    ensures (forall i :: 0 <= i < |registry| ==> registry[i].maxLtv <= ONE) ==> r <= SumCoinValues(coins)
  {
    if |coins| == 0 then 0
    else
      var ltv := MaxLtvOf(registry, coins[0].denom);
      MulAtMostOne(coins[0].value, ltv);
      Decimals.Mul(coins[0].value, ltv) + SumAdjusted(registry, coins[1..])
  }

  function SumDebtValues(debt: seq<DebtSharesValue>): Decimal
  {
    if |debt| == 0 then 0 else debt[0].value + SumDebtValues(debt[1..])
  }

  /** Every listed holding's value is part of the total. */
  lemma {:induction false} SumDebtValuesCovers(debt: seq<DebtSharesValue>, e: DebtSharesValue)
    requires e in debt
    ensures e.value <= SumDebtValues(debt)
  {
    if debt[0] != e {
      assert e in debt[1..];
      SumDebtValuesCovers(debt[1..], e);
    }
  }

  /** The health of a position. The factor is defined only when there is
      debt; the position is above its max LTV exactly when the
      LTV-weighted collateral is worth less than the debt. */
  function ComputeHealth(registry: Registry, position: Position): (h: HealthResponse)
    ensures h.totalCollateralValue == SumCoinValues(position.coins)
    ensures h.totalDebtValue == SumDebtValues(position.debt)
    ensures h.maxLtvAdjustedCollateral == SumAdjusted(registry, position.coins)
    ensures h.maxLtvHealthFactor.None? <==> h.totalDebtValue == 0
    ensures h.maxLtvHealthFactor.Some? ==>
              h.maxLtvHealthFactor.value * h.totalDebtValue <= h.maxLtvAdjustedCollateral * FRACTIONAL
              < (h.maxLtvHealthFactor.value + 1) * h.totalDebtValue
    ensures h.aboveMaxLtv <==> h.totalDebtValue > 0 && h.maxLtvAdjustedCollateral < h.totalDebtValue
  {
    var collateral := SumCoinValues(position.coins);
    var adjusted := SumAdjusted(registry, position.coins);
    var debt := SumDebtValues(position.debt);
    var factor := if debt == 0 then None else Some(Div(adjusted, debt));
    FactorBelowOne(adjusted, debt);
    HealthResponse(collateral, debt, adjusted, factor, factor.Some? && factor.value < ONE)
  }

  lemma FactorBelowOne(adjusted: Decimal, debt: Decimal)
    ensures debt > 0 ==> (Div(adjusted, debt) < ONE <==> adjusted < debt)
  {
    if debt > 0 {
      DivBelowOne(adjusted, debt);
    }
  }
}

=== FILE: keys.dfy ===
/** Store keys in ascending order. A prefix range over a map returns the
    keys under one prefix sorted byte-wise; the denoms here are ASCII, so
    ordering strings character by character gives the same order. */
module Keys {

  /** `a` sorts strictly before `b`: a proper prefix first, otherwise the
      first differing character decides. */
  predicate Below(a: string, b: string)
  {
    if |a| == 0 then |b| > 0
    else if |b| == 0 then false
    else a[0] < b[0] || (a[0] == b[0] && Below(a[1..], b[1..]))
  }

  lemma {:induction false} BelowIrreflexive(a: string)
    ensures !Below(a, a)
  {
    if |a| > 0 {
      BelowIrreflexive(a[1..]);
    }
  }

  lemma {:induction false} BelowAsymmetric(a: string, b: string)
    ensures !(Below(a, b) && Below(b, a))
  {
    if |a| > 0 && |b| > 0 {
      BelowAsymmetric(a[1..], b[1..]);
    }
  }

  lemma {:induction false} BelowTotal(a: string, b: string)
    ensures a == b || Below(a, b) || Below(b, a)
  {
    if |a| > 0 && |b| > 0 && a[0] == b[0] {
      BelowTotal(a[1..], b[1..]);
      if a[1..] == b[1..] {
        assert a == [a[0]] + a[1..] && b == [b[0]] + b[1..];
      }
    }
  }

  lemma {:induction false} BelowTransitive(a: string, b: string, c: string)
    requires Below(a, b) && Below(b, c)
    ensures Below(a, c)
  {
    if |a| > 0 && a[0] == b[0] && b[0] == c[0] {
      BelowTransitive(a[1..], b[1..], c[1..]);
    }
  }

  /** `m` sorts before every other member of `s`. */
  predicate IsLeast(m: string, s: set<string>)
  {
    m in s && forall x :: x in s && x != m ==> Below(m, x)
  }

  lemma {:induction false} LeastExists(s: set<string>)
    requires s != {}
    ensures exists m :: IsLeast(m, s)
    decreases |s|
  {
    var y :| y in s;
    var rest := s - {y};
    if rest != {} {
      LeastExists(rest);
      var m :| IsLeast(m, rest);
      BelowTotal(y, m);
      if Below(y, m) {
        forall x | x in s && x != y
          ensures Below(y, x)
        {
          if x != m {
            BelowTransitive(y, m, x);
          }
        }
        assert IsLeast(y, s);
      } else {
        assert IsLeast(m, s);
      }
    } else {
      assert s == {y};
      assert IsLeast(y, s);
    }
  }

  /** The least member of a non-empty set. */
  function Least(s: set<string>): (m: string)
    requires s != {}
    ensures IsLeast(m, s)
  {
    LeastExists(s);
    assert forall a, b :: IsLeast(a, s) && IsLeast(b, s) ==> a == b by {
      forall a, b | IsLeast(a, s) && IsLeast(b, s)
        ensures a == b
      {
        BelowAsymmetric(a, b);
      }
    }
    var m :| IsLeast(m, s);
    m
  }

  /** The members of `s` in ascending order, as a range over them yields
      them; each appears exactly once. */
  function Sorted(s: set<string>): (r: seq<string>)
    ensures forall x :: x in r <==> x in s
    ensures forall i, j :: 0 <= i < j < |r| ==> Below(r[i], r[j])
    ensures forall i, j :: 0 <= i < j < |r| ==> r[i] != r[j]
    decreases |s|
  {
    if s == {} then []
    else
      var m := Least(s);
      var rest := Sorted(s - {m});
      var r := [m] + rest;
      assert forall j :: 0 < j < |r| ==> r[j] == rest[j - 1] && r[j] in s - {m};
      assert forall i :: 0 <= i < |r| ==> !Below(r[i], r[i]) by {
        forall i | 0 <= i < |r| {
          BelowIrreflexive(r[i]);
        }
      }
      r
  }
}

=== FILE: ledger.dfy ===
/** The credit manager's ledger store: per-account coin balances and debt
    shares, keyed by (account, denom), and the pool-wide total of debt
    shares per denom. A missing entry reads as zero. */
module Ledger {
  import opened Types
  import Uint
  import Keys

  datatype Ledger = Ledger(
    assets: map<(AccountId, Denom), Uint128>,
    debtShares: map<(AccountId, Denom), Uint128>,
    totalDebtShares: map<Denom, Uint128>)
  {
    function AssetOf(account: AccountId, denom: Denom): Uint128 {
      Uint.GetOrZero(assets, (account, denom))
    }

    function SharesOf(account: AccountId, denom: Denom): Uint128 {
      Uint.GetOrZero(debtShares, (account, denom))
    }

    function TotalSharesOf(denom: Denom): Uint128 {
      Uint.GetOrZero(totalDebtShares, denom)
    }
  }

  const EMPTY: Ledger := Ledger(map[], map[], map[])

  /** No account is listed twice. */
  predicate Distinct<T(==)>(xs: seq<T>)
  {
    forall i, j :: 0 <= i < j < |xs| ==> xs[i] != xs[j]
  }

  /** The debt shares of `denom` held by the listed accounts, added up. */
  function SharesHeld(accounts: seq<AccountId>, shares: map<(AccountId, Denom), Uint128>, denom: Denom): nat
  {
    if |accounts| == 0 then 0
    else Uint.GetOrZero(shares, (accounts[0], denom)) + SharesHeld(accounts[1..], shares, denom)
  }

  /** Strict ledger consistency over the existing accounts: every debt-share
      entry belongs to a listed account, and for every denom the accounts'
      shares add up to the stored total (a missing total reads as zero). */
  ghost predicate SharesConserved(l: Ledger, accounts: seq<AccountId>)
  {
    && Distinct(accounts)
    && (forall k :: k in l.debtShares ==> k.0 in accounts)
    && (forall denom :: SharesHeld(accounts, l.debtShares, denom) == l.TotalSharesOf(denom))
  }

  /** The denoms under which `account` has an entry in `m`, in ascending
      order and each once, as a prefix range over the account's keys
      yields them. */
  function HeldDenoms(m: map<(AccountId, Denom), Uint128>, account: AccountId): (r: seq<Denom>)
    ensures forall d :: d in r <==> (account, d) in m
    ensures Distinct(r)
  {
    var held := set k | k in m.Keys && k.0 == account :: k.1;
    assert forall d :: (account, d) in m ==> d in held by {
      forall d | (account, d) in m
        ensures d in held
      {
        var k := (account, d);
        assert k in m.Keys && k.0 == account;
      }
    }
    Keys.Sorted(held)
  }

  /** The denoms of `denoms` under which `account` has a non-zero entry in
      `m`, in their order. */
  function Positive(denoms: seq<Denom>, m: map<(AccountId, Denom), Uint128>, account: AccountId): (r: seq<Denom>)
    ensures forall d :: d in r <==> d in denoms && Uint.GetOrZero(m, (account, d)) > 0
    ensures Distinct(denoms) ==> Distinct(r)
  {
    if |denoms| == 0 then []
    else
      var rest := Positive(denoms[1..], m, account);
      assert forall d :: d in denoms <==> d == denoms[0] || d in denoms[1..];
      assert Distinct(denoms) ==> Distinct(denoms[1..]) && denoms[0] !in rest;
      if Uint.GetOrZero(m, (account, denoms[0])) > 0 then
        var r := [denoms[0]] + rest;
        assert forall j :: 0 < j < |r| ==> r[j] == rest[j - 1] && r[j] in rest;
        r
      else rest
  }

  /** Zero balances are never stored: a coin balance that reaches zero is
      removed, so every stored balance is positive. */
  predicate NoZeroBalances(l: Ledger)
  {
    forall k :: k in l.assets ==> l.assets[k] > 0
  }

  /** Writing the entry of an unlisted account leaves the sum alone. */
  lemma {:induction false} SharesHeldUnlisted(accounts: seq<AccountId>, shares: map<(AccountId, Denom), Uint128>,
                                             account: AccountId, denom: Denom, v: Uint128, e: Denom)
    requires account !in accounts
    ensures SharesHeld(accounts, shares[(account, denom) := v], e) == SharesHeld(accounts, shares, e)
  {
    if |accounts| > 0 {
      SharesHeldUnlisted(accounts[1..], shares, account, denom, v, e);
    }
  }

  /** Writing one account's entry changes that denom's sum by the
      difference and no other denom's sum. */
  lemma {:induction false} SharesHeldUpdate(accounts: seq<AccountId>, shares: map<(AccountId, Denom), Uint128>,
                                           account: AccountId, denom: Denom, v: Uint128, e: Denom)
    requires Distinct(accounts) && account in accounts
    ensures e == denom ==>
              SharesHeld(accounts, shares[(account, denom) := v], e) + Uint.GetOrZero(shares, (account, denom))
              == SharesHeld(accounts, shares, e) + v
    ensures e != denom ==> SharesHeld(accounts, shares[(account, denom) := v], e) == SharesHeld(accounts, shares, e)
  {
    var rest := accounts[1..];
    assert Distinct(rest);
    if accounts[0] == account {
      assert account !in rest by {
        forall j | 0 <= j < |rest| ensures rest[j] != account {
          assert rest[j] == accounts[j + 1];
        }
      }
      SharesHeldUnlisted(rest, shares, account, denom, v, e);
    } else {
      assert account in rest;
      SharesHeldUpdate(rest, shares, account, denom, v, e);
    }
  }

  /** The ledger after `added` shares of `denom` go to `account` and to the
      denom's total. */
  function Mint(l: Ledger, account: AccountId, denom: Denom, added: nat): (l': Ledger)
    requires l.SharesOf(account, denom) + added < UINT128_LIMIT
    requires l.TotalSharesOf(denom) + added < UINT128_LIMIT
    ensures l'.assets == l.assets
    ensures l'.SharesOf(account, denom) == l.SharesOf(account, denom) + added
    ensures l'.TotalSharesOf(denom) == l.TotalSharesOf(denom) + added
    ensures forall k :: k != (account, denom) ==> Uint.GetOrZero(l'.debtShares, k) == Uint.GetOrZero(l.debtShares, k)
    ensures forall e :: e != denom ==> l'.TotalSharesOf(e) == l.TotalSharesOf(e)
  {
    l.(debtShares := l.debtShares[(account, denom) := l.SharesOf(account, denom) + added],
       totalDebtShares := l.totalDebtShares[denom := l.TotalSharesOf(denom) + added])
  }

  /** Minting to one existing account and to the denom's total, in
      lockstep, keeps the ledger consistent. */
  lemma {:induction false} MintPreservesConservation(l: Ledger, accounts: seq<AccountId>, account: AccountId, denom: Denom, added: nat)
    requires SharesConserved(l, accounts)
    requires account in accounts
    requires l.SharesOf(account, denom) + added < UINT128_LIMIT
    requires l.TotalSharesOf(denom) + added < UINT128_LIMIT
    ensures SharesConserved(Mint(l, account, denom, added), accounts)
  {
    var l' := Mint(l, account, denom, added);
    var v := l.SharesOf(account, denom) + added;
    assert l'.debtShares == l.debtShares[(account, denom) := v];
    forall e
      ensures SharesHeld(accounts, l'.debtShares, e) == l'.TotalSharesOf(e)
    {
      assert SharesHeld(accounts, l.debtShares, e) == l.TotalSharesOf(e);
      SharesHeldUpdate(accounts, l.debtShares, account, denom, v, e);
    }
  }

  /** The empty ledger is consistent for any set of distinct accounts. */
  lemma {:induction false} EmptyConserved(accounts: seq<AccountId>)
    requires Distinct(accounts)
    ensures SharesConserved(EMPTY, accounts)
    ensures NoZeroBalances(EMPTY)
  {
    forall denom
      ensures SharesHeld(accounts, EMPTY.debtShares, denom) == 0
    {
      NothingHeld(accounts, denom);
    }
  }

  lemma {:induction false} NothingHeld(accounts: seq<AccountId>, denom: Denom)
    ensures SharesHeld(accounts, map[], denom) == 0
  {
    if |accounts| > 0 {
      NothingHeld(accounts[1..], denom);
    }
  }
}

=== FILE: oracle.dfy ===
/** The mock price oracle: a map from denom to price, seeded at
    instantiation, overwritten one denom at a time, and queried for a
    denom's price. */
module MockOracle {
  import opened Types
  import opened Decimals

  datatype CoinPrice = CoinPrice(denom: Denom, price: Decimal)

  type Prices = map<Denom, Decimal>

  /** Queries the oracle understands; every other query is some other
      variant, identified here by its serialized form. */
  datatype QueryMsg = AssetPrice(denom: Denom) | OtherQuery(serialized: string)

  const UNIMPLEMENTED_PREFIX: string := "[mock] unimplemented query: "

  /** The price listed last for `denom`, scanning from the end of the list. */
  function LatestPrice(coins: seq<CoinPrice>, denom: Denom): Option<Decimal>
  {
    if |coins| == 0 then None
    else if coins[|coins| - 1].denom == denom then Some(coins[|coins| - 1].price)
    else LatestPrice(coins[..|coins| - 1], denom)
  }

  /** Instantiation stores every listed price in order, so a denom listed
      twice keeps its later price. */
  method Instantiate(coins: seq<CoinPrice>) returns (prices: Prices)
    ensures forall denom :: denom in prices <==> LatestPrice(coins, denom).Some?
    ensures forall denom :: denom in prices ==> LatestPrice(coins, denom) == Some(prices[denom])
  {
    prices := map[];
    var i := 0;
    while i < |coins|
      invariant 0 <= i <= |coins|
      invariant forall denom :: denom in prices <==> LatestPrice(coins[..i], denom).Some?
      invariant forall denom :: denom in prices ==> LatestPrice(coins[..i], denom) == Some(prices[denom])
    {
      assert coins[..i + 1][..i] == coins[..i];
      prices := prices[coins[i].denom := coins[i].price];
      i := i + 1;
    }
    assert coins[..|coins|] == coins;
  }

  /** Overwrite one denom's price. */
  function ChangePrice(prices: Prices, coin: CoinPrice): (r: Prices)
    ensures coin.denom in r && r[coin.denom] == coin.price
    ensures forall d :: d != coin.denom ==> (d in r <==> d in prices)
    ensures forall d :: d != coin.denom && d in prices ==> r[d] == prices[d]
  {
    prices[coin.denom := coin.price]
  }

  /** The stored price of a denom; an unknown denom is not found. */
  function QueryAssetPrice(prices: Prices, denom: Denom): (r: Result<Decimal, StdError>)
    ensures r.Ok? <==> denom in prices
    ensures r.Ok? ==> r.value == prices[denom]
    ensures r.Err? ==> r.error == NotFound("Decimal")
  {
    if denom in prices then Ok(prices[denom]) else Err(NotFound("Decimal"))
  }

  /** Answer a query: prices are served, everything else is refused. */
  function Query(prices: Prices, msg: QueryMsg): (r: Result<Decimal, StdError>)
    ensures msg.AssetPrice? ==> r == QueryAssetPrice(prices, msg.denom)
    ensures msg.OtherQuery? ==> r == Err(GenericErr(UNIMPLEMENTED_PREFIX + msg.serialized))
  {
    match msg
    case AssetPrice(denom) => QueryAssetPrice(prices, denom)
    case OtherQuery(serialized) => Err(GenericErr(UNIMPLEMENTED_PREFIX + serialized))
  }

  /** After a price change, a query for that denom returns the new price
      and a query for any other denom returns what it returned before. */
  lemma ChangeThenQuery(prices: Prices, coin: CoinPrice, denom: Denom)
    ensures Query(ChangePrice(prices, coin), AssetPrice(coin.denom)) == Ok(coin.price)
    ensures denom != coin.denom ==>
              Query(ChangePrice(prices, coin), AssetPrice(denom)) == Query(prices, AssetPrice(denom))
  {
  }

  /** Changing the same denom twice keeps only the second price. */
  lemma ChangeTwiceKeepsLast(prices: Prices, denom: Denom, first: Decimal, second: Decimal)
    ensures ChangePrice(ChangePrice(prices, CoinPrice(denom, first)), CoinPrice(denom, second))
         == ChangePrice(prices, CoinPrice(denom, second))
  {
  }
}

=== FILE: registry.dfy ===
/** The coin registry: the allow-list of denoms the credit manager accepts,
    each with the maximum loan-to-value ratio its collateral is weighted by. */
module Registry {
  import opened Types
  import opened Decimals

  datatype CoinInfo = CoinInfo(denom: Denom, maxLtv: Decimal)

  type Registry = seq<CoinInfo>

  /** The registry entry for `denom`, the first one if several match. */
  function Find(registry: Registry, denom: Denom): (r: Option<CoinInfo>)
    ensures r.Some? <==> exists i :: 0 <= i < |registry| && registry[i].denom == denom
    ensures r.Some? ==> r.value.denom == denom && FirstMatch(registry, denom, r.value)
  {
    if |registry| == 0 then None
    else if registry[0].denom == denom then
      assert FirstMatch(registry, denom, registry[0]) by {
        assert registry[0] == registry[0];
      }
      Some(registry[0])
    else
      var r := Find(registry[1..], denom);
      assert forall i :: 1 <= i < |registry| ==> registry[i] == registry[1..][i - 1];
      if r.Some? then FirstMatchShift(registry, denom, r.value); r else r
  }

  lemma FirstMatchShift(registry: Registry, denom: Denom, info: CoinInfo)
    requires |registry| > 0 && registry[0].denom != denom
    requires FirstMatch(registry[1..], denom, info)
    ensures FirstMatch(registry, denom, info)
  {
    var i :| 0 <= i < |registry[1..]| && registry[1..][i] == info
             && forall j :: 0 <= j < i ==> registry[1..][j].denom != denom;
    assert registry[i + 1] == info;
    assert forall j :: 1 <= j < i + 1 ==> registry[j] == registry[1..][j - 1];
  }

  /** `info` is the entry of the first position whose denom is `denom`. */
  ghost predicate FirstMatch(registry: Registry, denom: Denom, info: CoinInfo)
  {
    exists i :: 0 <= i < |registry| && registry[i] == info
                && forall j :: 0 <= j < i ==> registry[j].denom != denom
  }

  predicate IsWhitelisted(registry: Registry, denom: Denom)
  {
    Find(registry, denom).Some?
  }

  /** The guard every coin action passes first. */
  function AssertWhitelisted(registry: Registry, denom: Denom): (r: Result<(), ContractError>)
    ensures r.Ok? <==> exists i :: 0 <= i < |registry| && registry[i].denom == denom
    ensures r.Err? ==> r.error == NotWhitelisted(denom)
  {
    if IsWhitelisted(registry, denom) then Ok(()) else Err(NotWhitelisted(denom))
  }

  /** The max LTV of a denom, as the first entry for it records; an
      unlisted denom weighs nothing. */
  function MaxLtvOf(registry: Registry, denom: Denom): (r: Decimal)
    ensures !IsWhitelisted(registry, denom) ==> r == 0
    ensures IsWhitelisted(registry, denom) ==>
              exists i :: && 0 <= i < |registry| && registry[i].denom == denom && registry[i].maxLtv == r
                          && forall j :: 0 <= j < i ==> registry[j].denom != denom
    ensures (forall i :: 0 <= i < |registry| ==> registry[i].maxLtv <= ONE) ==> r <= ONE
  {
    match Find(registry, denom)
    case Some(info) => info.maxLtv
    case None => 0
  }
}

/** The external lender ("red bank") as far as the credit manager sees it:
    the debt it has pooled per denom, which it reports on request, and the
    effect of a borrow message on that debt. Interest accrues outside this
    model; the test double adds a fixed simulated yield on each borrow. */
module RedBank {
  import opened Types

  datatype Lender = Lender(debt: map<Denom, nat>, simulatedYield: nat)
  {
    /** The pooled debt the lender reports; none recorded reads as zero. */
    function QueryDebt(denom: Denom): nat {
      if denom in debt then debt[denom] else 0
    }

    /** The lender executing a borrow message for `coin`. */
    function ExecuteBorrow(coin: Coin): (l: Lender)
      ensures l.QueryDebt(coin.denom) == QueryDebt(coin.denom) + coin.amount + simulatedYield
      ensures forall d :: d != coin.denom ==> l.QueryDebt(d) == QueryDebt(d)
      ensures l.simulatedYield == simulatedYield
    {
      this.(debt := debt[coin.denom := QueryDebt(coin.denom) + coin.amount + simulatedYield])
    }
  }
}

=== FILE: scenarios.dfy ===
/** The credit manager's batch behaviour on concrete accounts: the denom
    uosmo with a max LTV of 0.7 and a price of 0.25, and a lender that adds
    one unit of simulated yield to the pooled debt on each borrow.
    Account "1" belongs to "user"; account "2" belongs to "user_b". */
module Scenarios {
  import opened Types
  import opened Ledger
  import opened Registry
  import opened RedBank
  import opened Health
  import opened Batch
  import Decimals
  import Borrow
  import Balances
  import Uint
  import DebtShares
  import MockOracle
  import Keys

  const OSMO: Denom := "uosmo"
  const JAKE: Denom := "ujake"
  const MAX_LTV: Decimals.Decimal := 700_000_000_000_000_000
  const PRICE: Decimals.Decimal := 250_000_000_000_000_000

  const ENV: Env := Env([CoinInfo(OSMO, MAX_LTV)], map[OSMO := PRICE])
  const START: World := World(EMPTY, Lender(map[], 1))

  function Osmo(amount: Uint128): Coin { Coin(OSMO, amount) }

  // -----------------------------------------------------------------------
  // Helpers that unfold a batch one action at a time.

  lemma {:induction false} ApplyOne(env: Env, w: World, account: AccountId, recipient: Addr, a: Action, w1: World, m1: seq<Msg>)
    requires ApplyAction(env, w, account, recipient, a) == Ok(Applied(w1, m1))
    ensures ApplyActions(env, w, account, recipient, [a]) == Ok(Applied(w1, m1))
  {
    assert [a][1..] == [];
    assert m1 + [] == m1;
  }

  lemma {:induction false} ApplyCons(env: Env, w: World, account: AccountId, recipient: Addr, a: Action, rest: seq<Action>,
                                     w1: World, m1: seq<Msg>, w2: World, m2: seq<Msg>)
    requires ApplyAction(env, w, account, recipient, a) == Ok(Applied(w1, m1))
    requires ApplyActions(env, w1, account, recipient, rest) == Ok(Applied(w2, m2))
    ensures ApplyActions(env, w, account, recipient, [a] + rest) == Ok(Applied(w2, m1 + m2))
  {
    assert ([a] + rest)[0] == a;
    assert ([a] + rest)[1..] == rest;
  }

  lemma {:induction false} ApplyConsFails(env: Env, w: World, account: AccountId, recipient: Addr, a: Action, rest: seq<Action>,
                                          w1: World, m1: seq<Msg>, e: ContractError)
    requires ApplyAction(env, w, account, recipient, a) == Ok(Applied(w1, m1))
    requires ApplyActions(env, w1, account, recipient, rest) == Err(e)
    ensures ApplyActions(env, w, account, recipient, [a] + rest) == Err(e)
  {
    assert ([a] + rest)[0] == a;
    assert ([a] + rest)[1..] == rest;
  }

  lemma {:induction false} FailOne(env: Env, w: World, account: AccountId, recipient: Addr, a: Action, e: ContractError)
    requires ApplyAction(env, w, account, recipient, a) == Err(e)
    ensures ApplyActions(env, w, account, recipient, [a]) == Err(e)
  {
  }

  /** A batch whose actions all succeed but whose end state is above the
      max LTV is refused with the end state's health factor. */
  lemma {:induction false} Refused(env: Env, w: World, account: AccountId, owner: Addr, actions: seq<Action>, applied: Applied, h: HealthResponse)
    requires ApplyActions(env, w, account, owner, actions) == Ok(applied)
    requires HealthOf(env, applied.world, account) == Ok(h) && h.aboveMaxLtv
    ensures h.maxLtvHealthFactor.Some?
    ensures UpdateCreditAccount(env, w, account, owner, owner, actions) == Err(AboveMaxLTV(account, h.maxLtvHealthFactor.value))
    ensures Execute(env, w, account, owner, owner, actions) == w
  {
  }

  /** A batch whose actions all succeed and whose end state is within the
      max LTV is committed. */
  lemma {:induction false} Committed(env: Env, w: World, account: AccountId, owner: Addr, actions: seq<Action>, applied: Applied, h: HealthResponse)
    requires ApplyActions(env, w, account, owner, actions) == Ok(applied)
    requires HealthOf(env, applied.world, account) == Ok(h) && !h.aboveMaxLtv
    ensures Execute(env, w, account, owner, owner, actions) == applied.world
  {
  }

  /** A batch one of whose actions fails is refused with that error. */
  lemma {:induction false} Aborted(env: Env, w: World, account: AccountId, owner: Addr, actions: seq<Action>, e: ContractError)
    requires ApplyActions(env, w, account, owner, actions) == Err(e)
    ensures UpdateCreditAccount(env, w, account, owner, owner, actions) == Err(e)
    ensures Execute(env, w, account, owner, owner, actions) == w
  {
  }

  /** An account whose only entry in `m` is under `denom` holds `denom`
      alone. */
  lemma {:induction false} OnlyDenom(m: map<(AccountId, Denom), Uint128>, account: AccountId, denom: Denom)
    requires forall d :: (account, d) in m <==> d == denom
    ensures HeldDenoms(m, account) == [denom]
  {
    var held := set k | k in m.Keys && k.0 == account :: k.1;
    assert (account, denom) in m.Keys;
    assert held == {denom};
    assert HeldDenoms(m, account) == Keys.Sorted(held);
    assert Keys.Least({denom}) == denom;
    assert {denom} - {denom} == {};
    assert Keys.Sorted({denom}) == [denom] + Keys.Sorted({});
  }

  /** An account without entries in `m` holds nothing. */
  lemma {:induction false} NoDenoms(m: map<(AccountId, Denom), Uint128>, account: AccountId)
    requires forall d :: (account, d) !in m
    ensures HeldDenoms(m, account) == []
  {
    var r := HeldDenoms(m, account);
    assert forall x :: x !in r;
  }

  /** The coins of an account holding one denom. */
  lemma {:induction false} ValueCoinsSingle(l: Ledger, prices: MockOracle.Prices, account: AccountId, denom: Denom)
    requires forall d :: (account, d) in l.assets <==> d == denom
    requires l.AssetOf(account, denom) > 0 && denom in prices
    ensures ValueCoins(l, prices, account)
         == Ok([CoinValue(denom, l.AssetOf(account, denom), prices[denom],
                          Decimals.Mul(prices[denom], Decimals.FromInt(l.AssetOf(account, denom))))])
  {
    var amount := l.AssetOf(account, denom);
    var v := CoinValue(denom, amount, prices[denom], Decimals.Mul(prices[denom], Decimals.FromInt(amount)));
    OnlyDenom(l.assets, account, denom);
    assert [denom][1..] == [];
    assert Positive([denom], l.assets, account) == [denom] + Positive([], l.assets, account);
    assert ValueCoinsOf([], l, prices, account) == Ok([]);
    assert [v] + [] == [v];
  }

  /** The debt of an account holding shares of one denom. */
  lemma {:induction false} ValueDebtsSingle(l: Ledger, lender: Lender, prices: MockOracle.Prices, account: AccountId, denom: Denom, owed: Uint128)
    requires forall d :: (account, d) in l.debtShares <==> d == denom
    requires l.SharesOf(account, denom) > 0 && denom in prices
    requires DebtShares.DebtForShares(lender.QueryDebt(denom), l.SharesOf(account, denom), l.TotalSharesOf(denom)) == Ok(owed)
    ensures ValueDebts(l, lender, prices, account)
         == Ok([DebtSharesValue(denom, l.SharesOf(account, denom), owed, prices[denom],
                                Decimals.Mul(prices[denom], Decimals.FromInt(owed)))])
  {
    var v := DebtSharesValue(denom, l.SharesOf(account, denom), owed, prices[denom],
                             Decimals.Mul(prices[denom], Decimals.FromInt(owed)));
    OnlyDenom(l.debtShares, account, denom);
    assert [denom][1..] == [];
    assert Positive([denom], l.debtShares, account) == [denom] + Positive([], l.debtShares, account);
    assert ValueDebtsOf([], l, lender, prices, account) == Ok([]);
    assert [v] + [] == [v];
  }

  lemma {:induction false} NoCoins(l: Ledger, prices: MockOracle.Prices, account: AccountId)
    requires forall d :: (account, d) !in l.assets
    ensures ValueCoins(l, prices, account) == Ok([])
  {
    NoDenoms(l.assets, account);
  }

  lemma {:induction false} NoDebts(l: Ledger, lender: Lender, prices: MockOracle.Prices, account: AccountId)
    requires forall d :: (account, d) !in l.debtShares
    ensures ValueDebts(l, lender, prices, account) == Ok([])
  {
    NoDenoms(l.debtShares, account);
  }

  // -----------------------------------------------------------------------
  // Account "1" as the only holder of uosmo coins and debt. The lemmas take
  // the resulting balances as parameters, pinned by their requires, so that
  // each world is named by plain variables.

  /** Account "1" holding `coins` uosmo and nothing else. */
  function Deposited(coins: Uint128): World
  {
    World(Ledger(map[("1", OSMO) := coins], map[], map[]), Lender(map[], 1))
  }

  /** Account "1" holding `coins` uosmo and `shares` debt shares, all the
      shares there are, against a pooled debt of `debt`. */
  function Sole(coins: Uint128, shares: Uint128, debt: nat): World
  {
    World(Ledger(map[("1", OSMO) := coins], map[("1", OSMO) := shares], map[OSMO := shares]),
          Lender(map[OSMO := debt], 1))
  }

  lemma DepositIntoEmpty(amount: Uint128)
    requires amount > 0
    ensures ApplyAction(ENV, START, "1", "user", Deposit(Osmo(amount))) == Ok(Applied(Deposited(amount), []))
  {
    assert Find(ENV.registry, OSMO).Some?;
  }

  /** The first borrow of uosmo mints a million shares per coin; the lender
      then holds the borrowed amount plus one unit of yield. */
  lemma FirstBorrow(deposit: Uint128, amount: Uint128, coins: Uint128, shares: Uint128, debt: nat)
    requires amount > 0 && coins == deposit + amount && shares == amount * 1_000_000 && debt == amount + 1
    ensures ApplyAction(ENV, Deposited(deposit), "1", "user", Batch.Borrow(Osmo(amount)))
         == Ok(Applied(Sole(coins, shares, debt), [LenderBorrow(Osmo(amount))]))
  {
    var w := Deposited(deposit);
    assert Find(ENV.registry, OSMO).Some?;
    assert w.lender.QueryDebt(OSMO) == 0;
    assert Borrow.StoredTotal(w.ledger, OSMO) == None;
    var b := Borrow.Borrow(ENV.registry, w.ledger, w.lender, "1", Osmo(amount));
    assert b.Ok?;
    assert b.value.ledger == Sole(coins, shares, debt).ledger;
  }

  lemma SoleWithdraw(coins: Uint128, shares: Uint128, debt: nat, amount: Uint128, left: Uint128)
    requires 0 < amount < coins && left == coins - amount
    ensures ApplyAction(ENV, Sole(coins, shares, debt), "1", "user", Withdraw(Osmo(amount)))
         == Ok(Applied(Sole(left, shares, debt), [BankSend("user", Osmo(amount))]))
  {
    var w := Sole(coins, shares, debt);
    assert Find(ENV.registry, OSMO).Some?;
    assert w.ledger.AssetOf("1", OSMO) == coins;
    var r := Balances.Withdraw(ENV.registry, w.ledger, "1", "user", Osmo(amount));
    assert r.Ok?;
    assert r.value.ledger == Sole(left, shares, debt).ledger;
  }

  /** The sole holder owes the whole pooled debt: shares / total is one. */
  lemma SolePosition(coins: Uint128, shares: Uint128, debt: Uint128)
    requires coins > 0 && shares > 0
    ensures QueryPosition(Sole(coins, shares, debt).ledger, Sole(coins, shares, debt).lender, ENV.prices, "1")
         == Ok(Position("1", [CoinValue(OSMO, coins, PRICE, PRICE * coins)],
                        [DebtSharesValue(OSMO, shares, debt, PRICE, PRICE * debt)]))
  {
    var w := Sole(coins, shares, debt);
    var owed := DebtShares.DebtForShares(debt, shares, shares);
    assert debt * shares <= debt * shares < (debt + 1) * shares;
    Decimals.UniqueQuotient(owed.value, debt, shares, debt * shares);
    Decimals.MulByInt(PRICE, coins);
    Decimals.MulByInt(PRICE, debt);
    ValueCoinsSingle(w.ledger, ENV.prices, "1", OSMO);
    ValueDebtsSingle(w.ledger, w.lender, ENV.prices, "1", OSMO, debt);
  }

  lemma SoleAdjusted(coins: Uint128)
    ensures SumAdjusted(ENV.registry, [CoinValue(OSMO, coins, PRICE, PRICE * coins)]) == coins * 175_000_000_000_000_000
  {
    assert Find(ENV.registry, OSMO).Some?;
    assert MaxLtvOf(ENV.registry, OSMO) == MAX_LTV;
    assert PRICE * coins * MAX_LTV == coins * 175_000_000_000_000_000 * Decimals.FRACTIONAL;
    Decimals.DivExact(coins * 175_000_000_000_000_000, Decimals.FRACTIONAL);
  }

  /** Each uosmo coin is worth 0.25 and weighs 0.7 of that, 0.175: the sole
      holder is above the max LTV exactly when 7 x coins < 10 x debt, and
      the health factor is 7 x coins / (10 x debt). */
  lemma SoleHealth(coins: Uint128, shares: Uint128, debt: Uint128)
    requires coins > 0 && shares > 0 && debt > 0
    ensures HealthOf(ENV, Sole(coins, shares, debt), "1").Ok?
    ensures var h := HealthOf(ENV, Sole(coins, shares, debt), "1").value;
            && h.maxLtvAdjustedCollateral == coins * 175_000_000_000_000_000
            && h.totalDebtValue == debt * PRICE
            && h.maxLtvHealthFactor == Some(Decimals.Div(coins * 7, debt * 10))
            && (h.aboveMaxLtv <==> 7 * coins < 10 * debt)
  {
    SolePosition(coins, shares, debt);
    var dv := DebtSharesValue(OSMO, shares, debt, PRICE, PRICE * debt);
    SoleAdjusted(coins);
    assert SumDebtValues([dv]) == debt * PRICE;
    Decimals.DivScaled(coins * 7, debt * 10, 25_000_000_000_000_000);
  }

  /** Holding only coins, the account has no debt and is healthy. */
  lemma DepositedHealth(coins: Uint128)
    requires coins > 0
    ensures HealthOf(ENV, Deposited(coins), "1").Ok?
    ensures !HealthOf(ENV, Deposited(coins), "1").value.aboveMaxLtv
  {
    var w := Deposited(coins);
    ValueCoinsSingle(w.ledger, ENV.prices, "1", OSMO);
    NoDebts(w.ledger, w.lender, ENV.prices, "1");
  }

  /** An account with nothing is healthy. */
  lemma EmptyHealth()
    ensures HealthOf(ENV, START, "1").Ok?
    ensures !HealthOf(ENV, START, "1").value.aboveMaxLtv
  {
    NoCoins(EMPTY, ENV.prices, "1");
    NoDebts(EMPTY, START.lender, ENV.prices, "1");
  }

  lemma DepositThenBorrow(deposit: Uint128, borrow: Uint128, coins: Uint128, shares: Uint128, debt: nat)
    requires deposit > 0 && borrow > 0 && coins == deposit + borrow && shares == borrow * 1_000_000 && debt == borrow + 1
    ensures ApplyActions(ENV, START, "1", "user", [Deposit(Osmo(deposit)), Batch.Borrow(Osmo(borrow))])
         == Ok(Applied(Sole(coins, shares, debt), [LenderBorrow(Osmo(borrow))]))
  {
    var after := Sole(coins, shares, debt);
    var msgs := [LenderBorrow(Osmo(borrow))];
    DepositIntoEmpty(deposit);
    FirstBorrow(deposit, borrow, coins, shares, debt);
    ApplyOne(ENV, Deposited(deposit), "1", "user", Batch.Borrow(Osmo(borrow)), after, msgs);
    ApplyCons(ENV, START, "1", "user", Deposit(Osmo(deposit)), [Batch.Borrow(Osmo(borrow))], Deposited(deposit), [], after, msgs);
    assert [Deposit(Osmo(deposit))] + [Batch.Borrow(Osmo(borrow))] == [Deposit(Osmo(deposit)), Batch.Borrow(Osmo(borrow))];
    assert [] + msgs == msgs;
  }

  // -----------------------------------------------------------------------
  // Borrowing.

  /** Depositing and borrowing into an empty pool in one batch is refused
      when 0.7 of the coins is worth less than the borrowed amount plus
      the lender's unit of yield; the refusal keeps nothing. */
  lemma DepositBorrowRefused(deposit: Uint128, borrow: Uint128, coins: Uint128, shares: Uint128, debt: Uint128)
    requires deposit > 0 && borrow > 0 && coins == deposit + borrow && shares == borrow * 1_000_000 && debt == borrow + 1
    requires 7 * coins < 10 * debt
    ensures UpdateCreditAccount(ENV, START, "1", "user", "user", [Deposit(Osmo(deposit)), Batch.Borrow(Osmo(borrow))])
         == Err(AboveMaxLTV("1", Decimals.Div(coins * 7, debt * 10)))
    ensures Execute(ENV, START, "1", "user", "user", [Deposit(Osmo(deposit)), Batch.Borrow(Osmo(borrow))]) == START
  {
    var after := Sole(coins, shares, debt);
    DepositThenBorrow(deposit, borrow, coins, shares, debt);
    SoleHealth(coins, shares, debt);
    Refused(ENV, START, "1", "user", [Deposit(Osmo(deposit)), Batch.Borrow(Osmo(borrow))],
            Applied(after, [LenderBorrow(Osmo(borrow))]), HealthOf(ENV, after, "1").value);
  }

  /** Otherwise the batch is committed: the account holds both coins, a
      million debt shares per borrowed coin, and all the shares there are. */
  lemma DepositBorrowCommitted(deposit: Uint128, borrow: Uint128, coins: Uint128, shares: Uint128, debt: Uint128)
    requires deposit > 0 && borrow > 0 && coins == deposit + borrow && shares == borrow * 1_000_000 && debt == borrow + 1
    requires 7 * coins >= 10 * debt
    ensures Execute(ENV, START, "1", "user", "user", [Deposit(Osmo(deposit)), Batch.Borrow(Osmo(borrow))])
         == Sole(coins, shares, debt)
  {
    var after := Sole(coins, shares, debt);
    DepositThenBorrow(deposit, borrow, coins, shares, debt);
    SoleHealth(coins, shares, debt);
    Committed(ENV, START, "1", "user", [Deposit(Osmo(deposit)), Batch.Borrow(Osmo(borrow))],
              Applied(after, [LenderBorrow(Osmo(borrow))]), HealthOf(ENV, after, "1").value);
  }

  lemma FactorAt1000()
    ensures Decimals.Div(1000 * 7, 701 * 10) == 998_573_466_476_462_196
  {
  }

  /** Depositing 300 and borrowing 700 in one batch leaves 1000 coins
      against a debt of 701: weighted collateral 700 against 701 gives a
      health factor of 0.998573466476462196, so the batch is refused and
      nothing is kept. */
  lemma BorrowAboveMaxLtvRollsBack(deposit: Uint128, borrow: Uint128)
    requires deposit == 300 && borrow == 700
    ensures UpdateCreditAccount(ENV, START, "1", "user", "user", [Deposit(Osmo(deposit)), Batch.Borrow(Osmo(borrow))])
         == Err(AboveMaxLTV("1", 998_573_466_476_462_196))
    ensures Execute(ENV, START, "1", "user", "user", [Deposit(Osmo(deposit)), Batch.Borrow(Osmo(borrow))]) == START
  {
    DepositBorrowRefused(deposit, borrow, 1000, 700_000_000, 701);
    FactorAt1000();
  }

  /** The first borrow of 42 after a deposit of 300 is committed: the
      account holds 342 coins and 42 million shares, the denom's total is
      42 million shares, and the debt is valued at 42 plus one unit of
      yield. */
  lemma FirstBorrowOf42(deposit: Uint128, borrow: Uint128)
    requires deposit == 300 && borrow == 42
    ensures var after := Execute(ENV, START, "1", "user", "user", [Deposit(Osmo(deposit)), Batch.Borrow(Osmo(borrow))]);
            && after == Sole(342, 42_000_000, 43)
            && after.ledger.TotalSharesOf(OSMO) == 42_000_000
            && QueryPosition(after.ledger, after.lender, ENV.prices, "1")
               == Ok(Position("1", [CoinValue(OSMO, 342, PRICE, PRICE * 342)],
                              [DebtSharesValue(OSMO, 42_000_000, 43, PRICE, PRICE * 43)]))
  {
    DepositBorrowCommitted(deposit, borrow, 342, 42_000_000, 43);
    SolePosition(342, 42_000_000, 43);
  }

  /** A batch that borrows nothing fails before anything is booked. */
  lemma BorrowZero(amount: Uint128)
    requires amount == 0
    ensures UpdateCreditAccount(ENV, START, "1", "user", "user", [Batch.Borrow(Osmo(amount))]) == Err(NoAmount)
    ensures Execute(ENV, START, "1", "user", "user", [Batch.Borrow(Osmo(amount))]) == START
  {
    FailOne(ENV, START, "1", "user", Batch.Borrow(Osmo(amount)), NoAmount);
    Aborted(ENV, START, "1", "user", [Batch.Borrow(Osmo(amount))], NoAmount);
  }

  // -----------------------------------------------------------------------
  // Withdrawing.

  /** A batch that withdraws nothing fails before anything is booked. */
  lemma WithdrawZero(amount: Uint128)
    requires amount == 0
    ensures UpdateCreditAccount(ENV, START, "1", "user", "user", [Withdraw(Osmo(amount))]) == Err(NoAmount)
    ensures Execute(ENV, START, "1", "user", "user", [Withdraw(Osmo(amount))]) == START
  {
    FailOne(ENV, START, "1", "user", Withdraw(Osmo(amount)), NoAmount);
    Aborted(ENV, START, "1", "user", [Withdraw(Osmo(amount))], NoAmount);
  }

  /** Withdrawing from an account that holds nothing is a subtraction
      overflow from zero, not a withdrawal of nothing. */
  lemma WithdrawWithoutFunds(amount: Uint128)
    requires amount == 234
    ensures UpdateCreditAccount(ENV, START, "1", "user", "user", [Withdraw(Osmo(amount))])
         == Err(Overflow(OverflowError(Sub, 0, 234)))
    ensures Execute(ENV, START, "1", "user", "user", [Withdraw(Osmo(amount))]) == START
  {
    var e := Overflow(OverflowError(Sub, 0, amount));
    assert Find(ENV.registry, OSMO).Some?;
    FailOne(ENV, START, "1", "user", Withdraw(Osmo(amount)), e);
    Aborted(ENV, START, "1", "user", [Withdraw(Osmo(amount))], e);
  }

  /** A deposit followed by a withdrawal of more than was deposited fails
      with both operands of the subtraction, and the deposit is not kept. */
  lemma WithdrawMoreThanDeposited(deposit: Uint128, amount: Uint128)
    requires deposit == 300 && amount == 400
    ensures UpdateCreditAccount(ENV, START, "1", "user", "user", [Deposit(Osmo(deposit)), Withdraw(Osmo(amount))])
         == Err(Overflow(OverflowError(Sub, 300, 400)))
    ensures Execute(ENV, START, "1", "user", "user", [Deposit(Osmo(deposit)), Withdraw(Osmo(amount))]) == START
  {
    var e := Overflow(OverflowError(Sub, deposit, amount));
    var actions := [Deposit(Osmo(deposit)), Withdraw(Osmo(amount))];
    DepositIntoEmpty(deposit);
    assert Find(ENV.registry, OSMO).Some?;
    assert Deposited(deposit).ledger.AssetOf("1", OSMO) == deposit;
    FailOne(ENV, Deposited(deposit), "1", "user", Withdraw(Osmo(amount)), e);
    ApplyConsFails(ENV, START, "1", "user", actions[0], [actions[1]], Deposited(deposit), [], e);
    assert [actions[0]] + [actions[1]] == actions;
    Aborted(ENV, START, "1", "user", actions, e);
  }

  /** Only whitelisted denoms can be withdrawn, even by an account that
      holds other coins; the batch's deposit is not kept. */
  lemma WithdrawNotWhitelisted(deposit: Uint128, amount: Uint128)
    requires deposit == 234 && amount == 234
    ensures UpdateCreditAccount(ENV, START, "1", "user", "user", [Deposit(Osmo(deposit)), Withdraw(Coin(JAKE, amount))])
         == Err(NotWhitelisted(JAKE))
    ensures Execute(ENV, START, "1", "user", "user", [Deposit(Osmo(deposit)), Withdraw(Coin(JAKE, amount))]) == START
  {
    var e := NotWhitelisted(JAKE);
    var actions := [Deposit(Osmo(deposit)), Withdraw(Coin(JAKE, amount))];
    DepositIntoEmpty(deposit);
    assert ENV.registry[1..] == [];
    assert Find(ENV.registry, JAKE).None?;
    FailOne(ENV, Deposited(deposit), "1", "user", Withdraw(Coin(JAKE, amount)), e);
    ApplyConsFails(ENV, START, "1", "user", actions[0], [actions[1]], Deposited(deposit), [], e);
    assert [actions[0]] + [actions[1]] == actions;
    Aborted(ENV, START, "1", "user", actions, e);
  }

  lemma FactorAt550()
    ensures Decimals.Div(550 * 7, 401 * 10) == 960_099_750_623_441_396
  {
  }

  /** Depositing 200, borrowing 400 and withdrawing 50 leaves 550 coins
      against a debt of 401: weighted collateral 385 against 401 gives a
      health factor of 0.960099750623441396, so the whole batch is refused
      and nothing is kept, the withdrawal included. */
  lemma WithdrawAboveMaxLtvRollsBack(deposit: Uint128, borrow: Uint128, amount: Uint128)
    requires deposit == 200 && borrow == 400 && amount == 50
    ensures UpdateCreditAccount(ENV, START, "1", "user", "user",
                                [Deposit(Osmo(deposit)), Batch.Borrow(Osmo(borrow)), Withdraw(Osmo(amount))])
         == Err(AboveMaxLTV("1", 960_099_750_623_441_396))
    ensures Execute(ENV, START, "1", "user", "user",
                    [Deposit(Osmo(deposit)), Batch.Borrow(Osmo(borrow)), Withdraw(Osmo(amount))]) == START
  {
    var first := [Deposit(Osmo(deposit)), Batch.Borrow(Osmo(borrow))];
    var actions := first + [Withdraw(Osmo(amount))];
    assert actions == [Deposit(Osmo(deposit)), Batch.Borrow(Osmo(borrow)), Withdraw(Osmo(amount))];
    var msgs := [LenderBorrow(Osmo(borrow))];
    var send := [BankSend("user", Osmo(amount))];
    DepositThenBorrow(deposit, borrow, 600, 400_000_000, 401);
    SoleWithdraw(600, 400_000_000, 401, amount, 550);
    ApplyOne(ENV, Sole(600, 400_000_000, 401), "1", "user", Withdraw(Osmo(amount)), Sole(550, 400_000_000, 401), send);
    ApplyActionsAppend(ENV, START, "1", "user", first, [Withdraw(Osmo(amount))]);
    SoleHealth(550, 400_000_000, 401);
    FactorAt550();
    Refused(ENV, START, "1", "user", actions, Applied(Sole(550, 400_000_000, 401), msgs + send),
            HealthOf(ENV, Sole(550, 400_000_000, 401), "1").value);
  }

  /** A deposit into an empty account is committed. */
  lemma DepositCommitted(amount: Uint128)
    requires amount > 0
    ensures Execute(ENV, START, "1", "user", "user", [Deposit(Osmo(amount))]) == Deposited(amount)
  {
    DepositIntoEmpty(amount);
    ApplyOne(ENV, START, "1", "user", Deposit(Osmo(amount)), Deposited(amount), []);
    DepositedHealth(amount);
    Committed(ENV, START, "1", "user", [Deposit(Osmo(amount))], Applied(Deposited(amount), []),
              HealthOf(ENV, Deposited(amount), "1").value);
  }

  /** Withdrawing part of a coin-only account's balance keeps the rest;
      withdrawing all of it removes the balance, leaving no entry. */
  lemma WithdrawFromDeposited(coins: Uint128, amount: Uint128, left: Uint128)
    requires 0 < amount <= coins && left == coins - amount
    ensures left > 0 ==> ApplyAction(ENV, Deposited(coins), "1", "user", Withdraw(Osmo(amount)))
                         == Ok(Applied(Deposited(left), [BankSend("user", Osmo(amount))]))
    ensures left == 0 ==> ApplyAction(ENV, Deposited(coins), "1", "user", Withdraw(Osmo(amount)))
                          == Ok(Applied(START, [BankSend("user", Osmo(amount))]))
  {
    var w := Deposited(coins);
    assert Find(ENV.registry, OSMO).Some?;
    assert w.ledger.AssetOf("1", OSMO) == coins;
    var r := Balances.Withdraw(ENV.registry, w.ledger, "1", "user", Osmo(amount));
    assert r.Ok?;
    if left == 0 {
      assert r.value.ledger.assets == map[];
    } else {
      assert r.value.ledger == Deposited(left).ledger;
    }
  }

  /** A withdrawal batch against a coin-only account is committed. */
  lemma WithdrawCommitted(coins: Uint128, amount: Uint128, left: Uint128)
    requires 0 < amount <= coins && left == coins - amount
    ensures left > 0 ==> Execute(ENV, Deposited(coins), "1", "user", "user", [Withdraw(Osmo(amount))]) == Deposited(left)
    ensures left == 0 ==> Execute(ENV, Deposited(coins), "1", "user", "user", [Withdraw(Osmo(amount))]) == START
  {
    var send := [BankSend("user", Osmo(amount))];
    WithdrawFromDeposited(coins, amount, left);
    if left == 0 {
      ApplyOne(ENV, Deposited(coins), "1", "user", Withdraw(Osmo(amount)), START, send);
      EmptyHealth();
      Committed(ENV, Deposited(coins), "1", "user", [Withdraw(Osmo(amount))], Applied(START, send),
                HealthOf(ENV, START, "1").value);
    } else {
      ApplyOne(ENV, Deposited(coins), "1", "user", Withdraw(Osmo(amount)), Deposited(left), send);
      DepositedHealth(left);
      Committed(ENV, Deposited(coins), "1", "user", [Withdraw(Osmo(amount))], Applied(Deposited(left), send),
                HealthOf(ENV, Deposited(left), "1").value);
    }
  }

  /** Depositing and withdrawing the same amount in one batch is committed
      and leaves the account with nothing, the coins sent to the owner. */
  lemma DepositWithdrawAll(amount: Uint128)
    requires amount == 234
    ensures UpdateCreditAccount(ENV, START, "1", "user", "user", [Deposit(Osmo(amount)), Withdraw(Osmo(amount))])
         == Ok(Applied(START, [BankSend("user", Osmo(amount))]))
    ensures Execute(ENV, START, "1", "user", "user", [Deposit(Osmo(amount)), Withdraw(Osmo(amount))]) == START
  {
    var actions := [Deposit(Osmo(amount)), Withdraw(Osmo(amount))];
    var send := [BankSend("user", Osmo(amount))];
    DepositIntoEmpty(amount);
    WithdrawFromDeposited(amount, amount, 0);
    ApplyOne(ENV, Deposited(amount), "1", "user", Withdraw(Osmo(amount)), START, send);
    ApplyCons(ENV, START, "1", "user", actions[0], [actions[1]], Deposited(amount), [], START, send);
    assert [actions[0]] + [actions[1]] == actions;
    assert [] + send == send;
    EmptyHealth();
  }

  /** Withdrawing 20 of 25 coins keeps 5; withdrawing those 5 empties the
      account. */
  lemma WithdrawInTwoSteps(deposit: Uint128, first: Uint128, second: Uint128)
    requires deposit == 25 && first == 20 && second == 5
    ensures var w1 := Execute(ENV, START, "1", "user", "user", [Deposit(Osmo(deposit))]);
            var w2 := Execute(ENV, w1, "1", "user", "user", [Withdraw(Osmo(first))]);
            var w3 := Execute(ENV, w2, "1", "user", "user", [Withdraw(Osmo(second))]);
            && w2.ledger.AssetOf("1", OSMO) == 5
            && w3 == START
  {
    DepositCommitted(deposit);
    WithdrawCommitted(deposit, first, 5);
    WithdrawCommitted(5, second, 0);
  }

  // -----------------------------------------------------------------------
  // Two borrowers of the same denom. Account "2" belongs to "user_b".

  /** Account "1" as in `Sole`, and account "2" holding `coins2` uosmo. */
  function WithSecond(coins: Uint128, shares: Uint128, debt: nat, coins2: Uint128): World
  {
    World(Ledger(map[("1", OSMO) := coins, ("2", OSMO) := coins2], map[("1", OSMO) := shares], map[OSMO := shares]),
          Lender(map[OSMO := debt], 1))
  }

  /** Both accounts holding coins and debt shares of uosmo. */
  function Pair(coins: Uint128, shares: Uint128, coins2: Uint128, shares2: Uint128, total: Uint128, debt: nat): World
  {
    World(Ledger(map[("1", OSMO) := coins, ("2", OSMO) := coins2], map[("1", OSMO) := shares, ("2", OSMO) := shares2],
                 map[OSMO := total]),
          Lender(map[OSMO := debt], 1))
  }

  lemma SecondDeposit(coins: Uint128, shares: Uint128, debt: nat, coins2: Uint128)
    requires coins2 > 0
    ensures ApplyAction(ENV, Sole(coins, shares, debt), "2", "user_b", Deposit(Osmo(coins2)))
         == Ok(Applied(WithSecond(coins, shares, debt, coins2), []))
  {
    var w := Sole(coins, shares, debt);
    assert Find(ENV.registry, OSMO).Some?;
    assert ("2", OSMO) !in w.ledger.assets;
    assert w.ledger.AssetOf("2", OSMO) == 0;
  }

  /** A borrow into a pool that already holds debt mints the borrowed
      fraction of the existing shares, rounded down. */
  lemma SecondBorrow(coins: Uint128, shares: Uint128, debt: nat, coins2: Uint128, amount: Uint128,
                     minted: Uint128, after2: Uint128, total: Uint128, debt': nat)
    requires debt > 0 && amount > 0
    requires DebtShares.SharesForBorrow(Some(shares), debt, amount) == Ok(minted)
    requires after2 == coins2 + amount && total == shares + minted && debt' == debt + amount + 1
    ensures ApplyAction(ENV, WithSecond(coins, shares, debt, coins2), "2", "user_b", Batch.Borrow(Osmo(amount)))
         == Ok(Applied(Pair(coins, shares, after2, minted, total, debt'), [LenderBorrow(Osmo(amount))]))
  {
    var w := WithSecond(coins, shares, debt, coins2);
    assert Find(ENV.registry, OSMO).Some?;
    assert w.lender.QueryDebt(OSMO) == debt;
    assert Borrow.StoredTotal(w.ledger, OSMO) == Some(shares);
    assert w.ledger.SharesOf("2", OSMO) == 0;
    assert w.ledger.AssetOf("2", OSMO) == coins2;
    var b := Borrow.Borrow(ENV.registry, w.ledger, w.lender, "2", Osmo(amount));
    assert b.Ok?;
    var l' := Pair(coins, shares, after2, minted, total, debt').ledger;
    assert b.value.ledger.assets == l'.assets;
    assert b.value.ledger.debtShares == l'.debtShares;
    assert b.value.ledger.totalDebtShares == l'.totalDebtShares;
    assert w.lender.ExecuteBorrow(Osmo(amount)).debt == map[OSMO := debt'];
  }

  lemma MintedFraction(shares: Uint128, debt: nat, amount: Uint128, minted: Uint128)
    requires debt > 0
    requires minted * debt <= shares * amount < (minted + 1) * debt
    ensures DebtShares.SharesForBorrow(Some(shares), debt, amount) == Ok(minted)
  {
    var m := DebtShares.SharesForBorrow(Some(shares), debt, amount);
    assert m.Ok? by {
      Decimals.FloorBracket(shares * amount, debt);
      Decimals.UniqueQuotient(minted, shares * amount / debt, debt, shares * amount);
    }
    Decimals.UniqueQuotient(minted, m.value, debt, shares * amount);
  }

  /** The position of one of the two borrowers: its coins, its shares and
      its rounded-down part of the pooled debt. */
  lemma PairPosition(account: AccountId, coins: Uint128, shares: Uint128, coins2: Uint128, shares2: Uint128,
                     total: Uint128, debt: nat, held: Uint128, owned: Uint128, owed: Uint128)
    requires account == "1" || account == "2"
    requires account == "1" ==> held == shares && owned == coins
    requires account == "2" ==> held == shares2 && owned == coins2
    requires owned > 0 && held > 0 && total > 0
    requires owed * total <= debt * held < (owed + 1) * total
    ensures QueryPosition(Pair(coins, shares, coins2, shares2, total, debt).ledger,
                          Pair(coins, shares, coins2, shares2, total, debt).lender, ENV.prices, account)
         == Ok(Position(account, [CoinValue(OSMO, owned, PRICE, PRICE * owned)],
                        [DebtSharesValue(OSMO, held, owed, PRICE, PRICE * owed)]))
  {
    var w := Pair(coins, shares, coins2, shares2, total, debt);
    assert w.ledger.AssetOf(account, OSMO) == owned;
    assert w.ledger.SharesOf(account, OSMO) == held;
    assert w.lender.QueryDebt(OSMO) == debt;
    var r := DebtShares.DebtForShares(debt, held, total);
    assert r.Ok? by {
      Decimals.FloorBracket(debt * held, total);
      Decimals.UniqueQuotient(owed, debt * held / total, total, debt * held);
    }
    Decimals.UniqueQuotient(owed, r.value, total, debt * held);
    Decimals.MulByInt(PRICE, owned);
    Decimals.MulByInt(PRICE, owed);
    ValueCoinsSingle(w.ledger, ENV.prices, account, OSMO);
    ValueDebtsSingle(w.ledger, w.lender, ENV.prices, account, OSMO, owed);
  }

  /** One of the two borrowers is within its max LTV when 0.7 of its coins
      is worth at least its part of the debt. */
  lemma PairHealthy(account: AccountId, coins: Uint128, shares: Uint128, coins2: Uint128, shares2: Uint128,
                    total: Uint128, debt: nat, held: Uint128, owned: Uint128, owed: Uint128)
    requires account == "1" || account == "2"
    requires account == "1" ==> held == shares && owned == coins
    requires account == "2" ==> held == shares2 && owned == coins2
    requires owned > 0 && held > 0 && total > 0
    requires owed * total <= debt * held < (owed + 1) * total
    requires 7 * owned >= 10 * owed
    ensures HealthOf(ENV, Pair(coins, shares, coins2, shares2, total, debt), account).Ok?
    ensures !HealthOf(ENV, Pair(coins, shares, coins2, shares2, total, debt), account).value.aboveMaxLtv
  {
    PairPosition(account, coins, shares, coins2, shares2, total, debt, held, owned, owed);
    SoleAdjusted(owned);
    var dv := DebtSharesValue(OSMO, held, owed, PRICE, PRICE * owed);
    assert SumDebtValues([dv]) == owed * PRICE;
  }

  /** Account "2" depositing and borrowing while account "1" holds all the
      shares: the batch is committed and both accounts now hold shares. */
  lemma SecondBatch(coins: Uint128, shares: Uint128, debt: nat, deposit: Uint128, borrow: Uint128,
                    minted: Uint128, coins2: Uint128, total: Uint128, debt': nat, owed: Uint128)
    requires debt > 0 && deposit > 0 && borrow > 0 && minted > 0
    requires DebtShares.SharesForBorrow(Some(shares), debt, borrow) == Ok(minted)
    requires coins2 == deposit + borrow && total == shares + minted && debt' == debt + borrow + 1
    requires owed * total <= debt' * minted < (owed + 1) * total
    requires 7 * coins2 >= 10 * owed
    ensures Execute(ENV, Sole(coins, shares, debt), "2", "user_b", "user_b", [Deposit(Osmo(deposit)), Batch.Borrow(Osmo(borrow))])
         == Pair(coins, shares, coins2, minted, total, debt')
  {
    var actions := [Deposit(Osmo(deposit)), Batch.Borrow(Osmo(borrow))];
    var after := Pair(coins, shares, coins2, minted, total, debt');
    var msgs := [LenderBorrow(Osmo(borrow))];
    SecondDeposit(coins, shares, debt, deposit);
    SecondBorrow(coins, shares, debt, deposit, borrow, minted, coins2, total, debt');
    ApplyOne(ENV, WithSecond(coins, shares, debt, deposit), "2", "user_b", actions[1], after, msgs);
    ApplyCons(ENV, Sole(coins, shares, debt), "2", "user_b", actions[0], [actions[1]],
              WithSecond(coins, shares, debt, deposit), [], after, msgs);
    assert [actions[0]] + [actions[1]] == actions;
    PairHealthy("2", coins, shares, coins2, minted, total, debt', minted, coins2, owed);
    Committed(ENV, Sole(coins, shares, debt), "2", "user_b", actions, Applied(after, [] + msgs),
              HealthOf(ENV, after, "2").value);
  }

  /** Two accounts borrow 50 uosmo each. The first seeds the pool at a
      million shares per coin: 50 million shares against a debt of 51. The
      second is minted 50/51 of those, rounded down: 49019607 shares, and
      the pool's total is the sum of both holdings, against a pooled debt
      of 102. */
  lemma TwoBorrowers(depositA: Uint128, depositB: Uint128, borrow: Uint128)
    requires depositA == 300 && depositB == 450 && borrow == 50
    ensures var w1 := Execute(ENV, START, "1", "user", "user", [Deposit(Osmo(depositA)), Batch.Borrow(Osmo(borrow))]);
            var w2 := Execute(ENV, w1, "2", "user_b", "user_b", [Deposit(Osmo(depositB)), Batch.Borrow(Osmo(borrow))]);
            && w1 == Sole(350, 50_000_000, 51)
            && w2 == Pair(350, 50_000_000, 500, 49_019_607, 99_019_607, 102)
            && w2.ledger.TotalSharesOf(OSMO) == w2.ledger.SharesOf("1", OSMO) + w2.ledger.SharesOf("2", OSMO)
  {
    DepositBorrowCommitted(depositA, borrow, 350, 50_000_000, 51);
    MintedFraction(50_000_000, 51, borrow, 49_019_607);
    SecondBatch(350, 50_000_000, 51, depositB, borrow, 49_019_607, 500, 99_019_607, 102, 50);
  }

  /** After both borrows, the first holding is worth 51 of the pooled 102
      and the second 50, each rounded down, so the two positions together
      show one unit less than the lender's debt. */
  lemma TwoBorrowersOwe(shares: Uint128, shares2: Uint128, total: Uint128, debt: nat)
    requires shares == 50_000_000 && shares2 == 49_019_607 && total == 99_019_607 && debt == 102
    ensures var w := Pair(350, shares, 500, shares2, total, debt);
            && QueryPosition(w.ledger, w.lender, ENV.prices, "1")
               == Ok(Position("1", [CoinValue(OSMO, 350, PRICE, PRICE * 350)],
                              [DebtSharesValue(OSMO, shares, 51, PRICE, PRICE * 51)]))
            && QueryPosition(w.ledger, w.lender, ENV.prices, "2")
               == Ok(Position("2", [CoinValue(OSMO, 500, PRICE, PRICE * 500)],
                              [DebtSharesValue(OSMO, shares2, 50, PRICE, PRICE * 50)]))
            && 51 + 50 < debt
  {
    PairPosition("1", 350, shares, 500, shares2, total, debt, shares, 350, 51);
    PairPosition("2", 350, shares, 500, shares2, total, debt, shares2, 500, 50);
  }
}

=== FILE: shares.dfy ===
/** Proportional-ownership accounting for pooled debt. The lender holds
    one interest-bearing debt per denom; accounts hold shares of it. A
    borrow mints shares in proportion to the pooled debt, and a holding of
    shares is worth its proportion of the pooled debt. Both conversions
    round down. */
module DebtShares {
  import opened Types
  import Uint

  /** Shares minted per coin when the pool holds no debt yet. */
  const DEFAULT_DEBT_SHARES_PER_COIN_BORROWED: Uint128 := 1_000_000

  /** Shares to mint for borrowing `amount`, given the stored total shares
      of the denom (absent when never written) and the pooled debt the
      lender reports. An empty pool seeds the share basis at a fixed rate;
      otherwise the new shares are the borrowed fraction of the pool,
      rounded down. */
  function SharesForBorrow(totalShares: Option<Uint128>, pooledDebt: nat, amount: Uint128): (r: Result<Uint128, ContractError>)
    ensures pooledDebt == 0 && amount * DEFAULT_DEBT_SHARES_PER_COIN_BORROWED < UINT128_LIMIT ==>
              r == Ok(amount * DEFAULT_DEBT_SHARES_PER_COIN_BORROWED)
    ensures pooledDebt == 0 && amount * DEFAULT_DEBT_SHARES_PER_COIN_BORROWED >= UINT128_LIMIT ==>
              r == Err(Std(StdOverflow(OverflowError(Mul, amount, DEFAULT_DEBT_SHARES_PER_COIN_BORROWED))))
    ensures pooledDebt > 0 && totalShares.None? ==> r == Err(Std(NotFound("Uint128")))
    ensures pooledDebt > 0 && totalShares.Some? ==>
              (r.Ok? <==> totalShares.value * amount / pooledDebt < UINT128_LIMIT)
    ensures pooledDebt > 0 && r.Ok? ==>
              r.value * pooledDebt <= totalShares.value * amount < (r.value + 1) * pooledDebt
    ensures pooledDebt > 0 && totalShares.Some? && r.Err? ==> r.error == CheckedMultiplyRatio(RatioOverflow)
  {
    if pooledDebt == 0 then
      Uint.CheckedMul(amount, DEFAULT_DEBT_SHARES_PER_COIN_BORROWED).MapErr(e => Std(StdOverflow(e)))
    else if totalShares.None? then
      Err(Std(NotFound("Uint128")))
    else
      Uint.CheckedMultiplyRatio(totalShares.value, amount, pooledDebt).MapErr(e => CheckedMultiplyRatio(e))
  }

  /** The debt a holding of `shares` stands for: its proportion of the
      pooled debt, rounded down. */
  function DebtForShares(pooledDebt: nat, shares: nat, totalShares: nat): (r: Result<Uint128, ContractError>)
    ensures totalShares == 0 ==> r == Err(CheckedMultiplyRatio(DivideByZero))
    ensures totalShares > 0 ==> (r.Ok? <==> pooledDebt * shares / totalShares < UINT128_LIMIT)
    ensures r.Ok? ==> r.value * totalShares <= pooledDebt * shares < (r.value + 1) * totalShares
  {
    Uint.CheckedMultiplyRatio(pooledDebt, shares, totalShares).MapErr(e => CheckedMultiplyRatio(e))
  }

  // ---------------------------------------------------------------------
  // Arithmetic facts about floor division used below.

  lemma {:induction false} MulLe(x: nat, y: nat, k: nat)
    requires x <= y
    ensures x * k <= y * k
  {
  }

  /** Any multiple of `d` not above `n` is bounded by the floor quotient. */
  lemma {:induction false} BelowFloor(q: nat, d: nat, n: nat)
    requires d > 0 && q * d <= n
    ensures q <= n / d
  {
    if q > n / d {
      MulLe(n / d + 1, q, d);
      assert false;
    }
  }

  /** Rounding each part down loses at least as much as rounding the whole. */
  lemma {:induction false} FloorSuperadditive(a: nat, b: nat, d: nat)
    requires d > 0
    ensures a / d + b / d <= (a + b) / d
  {
    assert (a / d) * d <= a;
    assert (b / d) * d <= b;
    assert (a / d + b / d) * d == (a / d) * d + (b / d) * d;
    BelowFloor(a / d + b / d, d, a + b);
  }

  lemma {:induction false} FloorMonotone(a: nat, b: nat, d: nat)
    requires d > 0 && a <= b
    ensures a / d <= b / d
  {
    assert (a / d) * d <= a;
    BelowFloor(a / d, d, b);
  }

  // ---------------------------------------------------------------------
  // Properties of the pool.

  /** The sum of a list of share holdings. */
  function SumOf(s: seq<nat>): nat
  {
    if |s| == 0 then 0 else s[0] + SumOf(s[1..])
  }

  /** The debt each holding is charged, rounded down. */
  function OwedEach(pooledDebt: nat, holdings: seq<nat>, totalShares: nat): (r: seq<nat>)
    requires totalShares > 0
    ensures |r| == |holdings|
  {
    if |holdings| == 0 then []
    else
      [pooledDebt * holdings[0] / totalShares] + OwedEach(pooledDebt, holdings[1..], totalShares)
  }

  /** Rounding favours the pool: when the holdings do not exceed the total
      shares, what they are charged together never exceeds the pooled debt.
      It may fall short of it (the lost remainder is dust owed to nobody). */
  lemma {:induction false} OwedNeverExceedsPool(pooledDebt: nat, holdings: seq<nat>, totalShares: nat)
    requires totalShares > 0
    requires SumOf(holdings) <= totalShares
    ensures SumOf(OwedEach(pooledDebt, holdings, totalShares)) <= pooledDebt
  {
    var whole := pooledDebt * SumOf(holdings);
    OwedBelowFloorOfSum(pooledDebt, holdings, totalShares);
    assert whole <= pooledDebt * totalShares by {
      MulLe(SumOf(holdings), totalShares, pooledDebt);
    }
    FloorMonotone(whole, pooledDebt * totalShares, totalShares);
    ExactQuotient(pooledDebt, totalShares);
  }

  lemma {:induction false} ExactQuotient(x: nat, d: nat)
    requires d > 0
    ensures x * d / d == x
  {
    BelowFloor(x, d, x * d);
    if x * d / d > x {
      MulLe(x + 1, x * d / d, d);
      Uint.FloorDivBounds(x * d, d);
      assert false;
    }
  }

  lemma {:induction false} OwedBelowFloorOfSum(pooledDebt: nat, holdings: seq<nat>, totalShares: nat)
    requires totalShares > 0
    ensures SumOf(OwedEach(pooledDebt, holdings, totalShares)) <= pooledDebt * SumOf(holdings) / totalShares
  {
    if |holdings| > 0 {
      var rest := holdings[1..];
      var head := pooledDebt * holdings[0];
      var tail := pooledDebt * SumOf(rest);
      assert SumOf(OwedEach(pooledDebt, holdings, totalShares))
          == head / totalShares + SumOf(OwedEach(pooledDebt, rest, totalShares));
      OwedBelowFloorOfSum(pooledDebt, rest, totalShares);
      FloorSuperadditive(head, tail, totalShares);
      assert head + tail == pooledDebt * SumOf(holdings) by {
        assert SumOf(holdings) == holdings[0] + SumOf(rest);
        Distribute(pooledDebt, holdings[0], SumOf(rest));
      }
    }
  }

  lemma {:induction false} Distribute(k: nat, a: nat, b: nat)
    ensures k * a + k * b == k * (a + b)
  {
  }

  /** A borrower is never charged more than it borrowed: right after the
      lender records the new debt, the freshly minted shares are worth at
      most the borrowed amount. */
  lemma {:induction false} BorrowNeverOvercharges(totalShares: Uint128, pooledDebt: nat, amount: Uint128, minted: Uint128)
    requires pooledDebt > 0
    requires SharesForBorrow(Some(totalShares), pooledDebt, amount) == Ok(minted)
    requires totalShares + minted > 0
    ensures (pooledDebt + amount) * minted / (totalShares + minted) <= amount
  {
    assert minted * pooledDebt <= totalShares * amount;
    RepaymentBound(totalShares, pooledDebt, amount, minted);
  }

  /** The arithmetic behind `BorrowNeverOvercharges`: if the minted shares
      are at most the borrowed fraction of the pool, their rounded-down
      share of the grown pool is at most the amount borrowed. */
  lemma {:induction false} RepaymentBound(s: nat, p: nat, a: nat, m: nat)
    requires s + m > 0
    requires m * p <= s * a
    ensures (p + a) * m / (s + m) <= a
  {
    var n := (p + a) * m;
    var d := s + m;
    assert n == m * p + m * a by {
      Distribute(m, p, a);
    }
    assert a * d == s * a + m * a by {
      Distribute(a, s, m);
    }
    FloorMonotone(n, a * d, d);
    ExactQuotient(a, d);
  }

  /** When the pooled debt exceeds the stored total times the amount, the
      borrow mints no shares at all. */
  lemma MintsNothing(totalShares: Uint128, pooledDebt: nat, amount: Uint128)
    requires pooledDebt > 0
    requires totalShares * amount < pooledDebt
    ensures SharesForBorrow(Some(totalShares), pooledDebt, amount) == Ok(0)
  {
    assert totalShares * amount / pooledDebt == 0;
  }

  /** A borrow never lowers what the existing holders owe: the debt per
      share after the borrow is at least the debt per share before it. */
  lemma {:induction false} BorrowNeverDilutes(totalShares: Uint128, pooledDebt: nat, amount: Uint128, minted: Uint128, held: nat)
    requires pooledDebt > 0 && totalShares > 0
    requires SharesForBorrow(Some(totalShares), pooledDebt, amount) == Ok(minted)
    ensures pooledDebt * held / totalShares <= (pooledDebt + amount) * held / (totalShares + minted)
  {
    assert minted * pooledDebt <= totalShares * amount;
    PerShareDebtGrows(totalShares, pooledDebt, amount, minted, held);
  }

  /** The arithmetic behind `BorrowNeverDilutes`: if the minted shares are
      at most the borrowed fraction of the pool, the rounded-down debt of
      any holding does not drop. */
  lemma {:induction false} PerShareDebtGrows(s: nat, p: nat, a: nat, m: nat, held: nat)
    requires p > 0 && s > 0
    requires m * p <= s * a
    ensures p * held / s <= (p + a) * held / (s + m)
  {
    var q := p * held / s;
    Uint.FloorDivBounds(p * held, s);
    CrossProduct(q, held, s, p, a, m);
    CancelPositive(q * (s + m), (p + a) * held, p);
    BelowFloor(q, s + m, (p + a) * held);
  }

  lemma {:induction false} CancelPositive(x: nat, y: nat, k: nat)
    requires k > 0 && x * k <= y * k
    ensures x <= y
  {
    if x > y {
      MulLe(y + 1, x, k);
    }
  }

  lemma {:induction false} CrossProduct(q: nat, held: nat, s: nat, p: nat, a: nat, m: nat)
    requires q * s <= p * held
    requires m * p <= s * a
    ensures q * (s + m) * p <= (p + a) * held * p
  {
    calc {
      q * (s + m) * p;
    ==
      q * s * p + q * (m * p);
    <= { MulLe(m * p, s * a, q); }
      q * s * p + q * (s * a);
    ==
      q * s * p + (q * s) * a;
    <= { MulLe(q * s, p * held, p); MulLe(q * s, p * held, a); }
      p * held * p + p * held * a;
    ==
      (p + a) * held * p;
    }
  }
}

=== FILE: types.dfy ===
/** Shared vocabulary of the credit manager: identifiers, coins, the error
    taxonomy and the messages an operation hands back to the chain. */
module Types {

  /** A failure-compatible result, usable with `:-`. */
  datatype Result<+T, +E> = Ok(value: T) | Err(error: E) {

    predicate IsFailure() {
      Err?
    }

    function PropagateFailure<U>(): Result<U, E>
      requires Err?
    {
      Err(error)
    }

    function Extract(): T
      requires Ok?
    {
      value
    }

    /** Keeps the success value and rewrites the error. */
    function MapErr<E2>(f: E -> E2): (r: Result<T, E2>)
      ensures Ok? <==> r.Ok?
      ensures Ok? ==> r.value == value
      ensures Err? ==> r.error == f(error)
    {
      match this
      case Ok(v) => Ok(v)
      case Err(e) => Err(f(e))
    }
  }

  datatype Option<+T> = None | Some(value: T)

  type Denom = string
  type AccountId = string
  type Addr = string

  /** 2^128: every Uint128 is strictly below this bound. */
  const UINT128_LIMIT: nat := 0x1_0000_0000_0000_0000_0000_0000_0000_0000

  type Uint128 = n: nat | n < UINT128_LIMIT

  datatype Coin = Coin(denom: Denom, amount: Uint128)

  /** Which checked Uint128 operation overflowed. */
  datatype OverflowOperation = Add | Sub | Mul

  /** The operands are kept for diagnostics: `Overflow{Sub, "300", "400"}`. */
  datatype OverflowError = OverflowError(operation: OverflowOperation, operand1: nat, operand2: nat)

  /** `checked_multiply_ratio` fails on a zero denominator or a result that
      does not fit in 128 bits. */
  datatype RatioError = DivideByZero | RatioOverflow

  /** The chain's standard errors, as far as this model needs them. */
  datatype StdError =
    | NotFound(kind: string)
    | GenericErr(msg: string)
    | StdOverflow(source: OverflowError)

  datatype ContractError =
    | NoAmount
    | NotWhitelisted(item: string)
    | NotTokenOwner(user: Addr, tokenId: AccountId)
    | Overflow(source: OverflowError)
    | CheckedMultiplyRatio(ratio: RatioError)
    | Std(std: StdError)
    | AboveMaxLTV(tokenId: AccountId, maxLtvHealthFactor: nat)
    | UnlockNotReady
    | NoPositionMatch(positionId: nat)
    | Unauthorized(user: Addr, action: string)

  /** Messages a successful operation asks the chain to execute afterwards,
      kept abstract: only their kind, target and payload matter here. */
  datatype Msg =
    | LenderBorrow(coin: Coin)
    | BankSend(recipient: Addr, coin: Coin)
    | VaultWithdrawUnlocked(vault: Addr, positionId: nat)
    | UpdateCoinBalances(accountId: AccountId, previousBalances: seq<Coin>)
}

=== FILE: uint.dfy ===
/** Checked Uint128 arithmetic: every operation either yields the exact
    mathematical result, when it fits in 128 bits, or an error carrying the
    operands. Nothing wraps and nothing saturates. */
module Uint {
  import opened Types

  function CheckedAdd(a: Uint128, b: Uint128): (r: Result<Uint128, OverflowError>)
    ensures r.Ok? <==> a + b < UINT128_LIMIT
    ensures r.Ok? ==> r.value == a + b
    ensures r.Err? ==> r.error == OverflowError(Add, a, b)
  {
    if a + b < UINT128_LIMIT then Ok(a + b) else Err(OverflowError(Add, a, b))
  }

  function CheckedSub(a: Uint128, b: Uint128): (r: Result<Uint128, OverflowError>)
    ensures r.Ok? <==> b <= a
    ensures r.Ok? ==> r.value + b == a
    ensures r.Err? ==> r.error == OverflowError(Sub, a, b)
  {
    if b <= a then Ok(a - b) else Err(OverflowError(Sub, a, b))
  }

  function CheckedMul(a: Uint128, b: Uint128): (r: Result<Uint128, OverflowError>)
    ensures r.Ok? <==> a * b < UINT128_LIMIT
    ensures r.Ok? ==> r.value == a * b
    ensures r.Err? ==> r.error == OverflowError(Mul, a, b)
  {
    if a * b < UINT128_LIMIT then Ok(a * b) else Err(OverflowError(Mul, a, b))
  }

  /** `a * num / den` rounded down, with the product taken at double width
      so that only the final quotient has to fit in 128 bits. */
  function CheckedMultiplyRatio(a: nat, num: nat, den: nat): (r: Result<Uint128, RatioError>)
    ensures den == 0 ==> r == Err(DivideByZero)
    ensures den > 0 ==> (r.Ok? <==> a * num / den < UINT128_LIMIT)
    ensures r.Err? && den > 0 ==> r.error == RatioOverflow
    ensures r.Ok? ==> r.value * den <= a * num < (r.value + 1) * den
  {
    if den == 0 then Err(DivideByZero)
    else
      var q := a * num / den;
      FloorDivBounds(a * num, den);
      if q < UINT128_LIMIT then Ok(q) else Err(RatioOverflow)
  }

  /** Floor division pins the quotient between two multiples of the divisor. */
  lemma FloorDivBounds(n: nat, d: nat)
    requires d > 0
    ensures (n / d) * d <= n < (n / d + 1) * d
  {
  }

  /** A value missing from a storage map reads as zero. */
  function GetOrZero<K>(m: map<K, Uint128>, k: K): (r: Uint128)
    ensures k in m ==> r == m[k]
    ensures k !in m ==> r == 0
  {
    if k in m then m[k] else 0
  }
}

=== FILE: vault.dfy ===
/** Withdrawing an unlocked vault position. An account's position in a vault
    keeps, next to its locked and unlocked amounts, a list of unlocking
    entries, each with an id and an amount. Once the vault reports that an
    entry's unlock time has passed, the entry is withdrawn: its amount is
    booked off, the vault is asked to release it, and a callback is queued
    to credit the account with whatever the credit manager's own balances
    gained. */
module Vault {
  import opened Types
  import Uint

  datatype UnlockingEntry = UnlockingEntry(id: nat, amount: Uint128)

  datatype VaultPosition = VaultPosition(locked: Uint128, unlocked: Uint128, unlocking: seq<UnlockingEntry>)

  /** The vault allow-list and every account's position in each vault. */
  datatype VaultState = VaultState(allowedVaults: set<Addr>, positions: map<(AccountId, Addr), VaultPosition>)

  /** What the vault adapter answers: an entry's unlock time, or an error. */
  type UnlockQuery = nat -> Result<nat, StdError>

  datatype UnlockResponse = UnlockResponse(state: VaultState, msgs: seq<Msg>)

  function AssertVaultWhitelisted(allowed: set<Addr>, vault: Addr): (r: Result<(), ContractError>)
    ensures r.Ok? <==> vault in allowed
    ensures r.Err? ==> r.error == NotWhitelisted(vault)
  {
    if vault in allowed then Ok(()) else Err(NotWhitelisted(vault))
  }

  /** The stored position of `account` in `vault`; absent is not found. */
  function LoadPosition(state: VaultState, account: AccountId, vault: Addr): (r: Result<VaultPosition, ContractError>)
    ensures r.Ok? <==> (account, vault) in state.positions
    ensures r.Ok? ==> r.value == state.positions[(account, vault)]
    ensures r.Err? ==> r.error == Std(NotFound("VaultPosition"))
  {
    if (account, vault) in state.positions then Ok(state.positions[(account, vault)])
    else Err(Std(NotFound("VaultPosition")))
  }

  /** The index of the first unlocking entry with id `id`. */
  function FindUnlocking(entries: seq<UnlockingEntry>, id: nat): (r: Option<nat>)
    ensures r.Some? ==> r.value < |entries| && entries[r.value].id == id
    ensures r.Some? ==> forall j :: 0 <= j < r.value ==> entries[j].id != id
    ensures r.None? <==> forall j :: 0 <= j < |entries| ==> entries[j].id != id
  {
    if |entries| == 0 then None
    else if entries[0].id == id then Some(0)
    else
      match FindUnlocking(entries[1..], id)
      case None => None
      case Some(i) => Some(i + 1)
  }

  /** The unlocking entry `id` of a position; no entry with that id fails. */
  function GetUnlockingPosition(id: nat, position: VaultPosition): (r: Result<UnlockingEntry, ContractError>)
    ensures r.Ok? <==> exists j :: 0 <= j < |position.unlocking| && position.unlocking[j].id == id
    ensures r.Ok? ==> r.value in position.unlocking && r.value.id == id
    ensures r.Err? ==> r.error == NoPositionMatch(id)
  {
    match FindUnlocking(position.unlocking, id)
    case None => Err(NoPositionMatch(id))
    case Some(i) => Ok(position.unlocking[i])
  }

  /** Decrease the first unlocking entry `id` by `amount`, checked. */
  function DecrementUnlocking(position: VaultPosition, id: nat, amount: Uint128): (r: Result<VaultPosition, ContractError>)
    ensures r.Ok? ==> |r.value.unlocking| == |position.unlocking|
    ensures r.Ok? ==> r.value.locked == position.locked && r.value.unlocked == position.unlocked
    ensures r.Ok? ==> var i := FindUnlocking(position.unlocking, id);
              && i.Some?
              && amount <= position.unlocking[i.value].amount
              && r.value.unlocking[i.value] == UnlockingEntry(id, position.unlocking[i.value].amount - amount)
              && forall j :: 0 <= j < |position.unlocking| && j != i.value ==> r.value.unlocking[j] == position.unlocking[j]
    ensures FindUnlocking(position.unlocking, id).None? ==> r == Err(NoPositionMatch(id))
    ensures FindUnlocking(position.unlocking, id).Some? ==>
              var e := position.unlocking[FindUnlocking(position.unlocking, id).value];
              (r.Ok? <==> amount <= e.amount)
  {
    match FindUnlocking(position.unlocking, id)
    case None => Err(NoPositionMatch(id))
    case Some(i) =>
      var e := position.unlocking[i];
      var left :- Uint.CheckedSub(e.amount, amount).MapErr(e => Overflow(e));
      Ok(position.(unlocking := position.unlocking[i := UnlockingEntry(id, left)]))
  }

  /** Withdraw the unlocked entry `positionId` of `account` from `vault` at
      block time `now`. The guards run in order: the vault must be
      whitelisted, the account must hold a position in it, the position
      must have an unlocking entry with that id, the vault must report its
      unlock time, and that time must not be after `now`. The entry is then
      decreased by its full recorded amount. `previousBalances` is the
      credit manager contract's own bank balance of the vault's withdraw
      denoms, read before the withdraw message runs; the callback credits
      the account with what those balances gained. Two messages
      follow, in order: the vault's release of the entry, then the balance
      callback for the same account. */
  function WithdrawUnlocked(state: VaultState, unlockQuery: UnlockQuery, now: nat, account: AccountId,
                            vault: Addr, positionId: nat, previousBalances: Result<seq<Coin>, StdError>): (r: Result<UnlockResponse, ContractError>)
    ensures vault !in state.allowedVaults ==> r == Err(NotWhitelisted(vault))
    ensures vault in state.allowedVaults && (account, vault) !in state.positions ==>
              r == Err(Std(NotFound("VaultPosition")))
    ensures vault in state.allowedVaults && (account, vault) in state.positions
            && FindUnlocking(state.positions[(account, vault)].unlocking, positionId).None? ==>
              r == Err(NoPositionMatch(positionId))
    ensures r.Ok? <==>
              && vault in state.allowedVaults
              && (account, vault) in state.positions
              && FindUnlocking(state.positions[(account, vault)].unlocking, positionId).Some?
              && unlockQuery(positionId).Ok?
              && unlockQuery(positionId).value <= now
              && previousBalances.Ok?
    ensures r.Err? && vault in state.allowedVaults && (account, vault) in state.positions
            && FindUnlocking(state.positions[(account, vault)].unlocking, positionId).Some?
            && unlockQuery(positionId).Ok? && unlockQuery(positionId).value > now ==>
              r.error == UnlockNotReady
    ensures r.Ok? ==> (account, vault) in r.value.state.positions
    ensures r.Ok? ==>
              var before := state.positions[(account, vault)];
              var i := FindUnlocking(before.unlocking, positionId).value;
              var after := r.value.state.positions[(account, vault)];
              && r.value.state.allowedVaults == state.allowedVaults
              && r.value.state.positions - {(account, vault)} == state.positions - {(account, vault)}
              && after.locked == before.locked && after.unlocked == before.unlocked
              && |after.unlocking| == |before.unlocking|
              && after.unlocking[i] == UnlockingEntry(positionId, 0)
              && (forall j :: 0 <= j < |before.unlocking| && j != i ==> after.unlocking[j] == before.unlocking[j])
              && r.value.msgs == [VaultWithdrawUnlocked(vault, positionId), UpdateCoinBalances(account, previousBalances.value)]
  {
    var _ :- AssertVaultWhitelisted(state.allowedVaults, vault);
    var position :- LoadPosition(state, account, vault);
    var matching :- GetUnlockingPosition(positionId, position);
    var unlockedAt :- unlockQuery(matching.id).MapErr(e => Std(e));
    if unlockedAt > now then Err(UnlockNotReady)
    else
      match DecrementUnlocking(position, positionId, matching.amount)
      case Err(e) => Err(e)
      case Ok(updated) =>
        var balances :- previousBalances.MapErr(e => Std(e));
        var state' := state.(positions := state.positions[(account, vault) := updated]);
        Ok(UnlockResponse(state', [VaultWithdrawUnlocked(vault, positionId), UpdateCoinBalances(account, balances)]))
  }

  /** A withdraw at a time no later than the unlock time fails unless the
      unlock time has been reached: being exactly on time is enough, one
      tick early is not. */
  lemma UnlockTimeBoundary(state: VaultState, unlockQuery: UnlockQuery, account: AccountId, vault: Addr,
                           positionId: nat, previousBalances: Result<seq<Coin>, StdError>)
    requires vault in state.allowedVaults && (account, vault) in state.positions
    requires FindUnlocking(state.positions[(account, vault)].unlocking, positionId).Some?
    requires unlockQuery(positionId).Ok? && unlockQuery(positionId).value > 0
    requires previousBalances.Ok?
    ensures var t := unlockQuery(positionId).value;
            && WithdrawUnlocked(state, unlockQuery, t, account, vault, positionId, previousBalances).Ok?
            && WithdrawUnlocked(state, unlockQuery, t - 1, account, vault, positionId, previousBalances) == Err(UnlockNotReady)
  {
  }

  /** Once withdrawn, the same entry still matches but holds nothing, so a
      second withdraw succeeds and leaves the vault state as the first left
      it; it still queues another withdraw message to the vault and another
      balance update. */
  lemma {:induction false} WithdrawTwiceKeepsState(state: VaultState, unlockQuery: UnlockQuery, now: nat, account: AccountId,
                                                      vault: Addr, positionId: nat, previousBalances: Result<seq<Coin>, StdError>)
    requires WithdrawUnlocked(state, unlockQuery, now, account, vault, positionId, previousBalances).Ok?
    ensures var once := WithdrawUnlocked(state, unlockQuery, now, account, vault, positionId, previousBalances).value.state;
            var twice := WithdrawUnlocked(once, unlockQuery, now, account, vault, positionId, previousBalances);
            && twice.Ok?
            && twice.value.state == once
            && twice.value.msgs == [VaultWithdrawUnlocked(vault, positionId), UpdateCoinBalances(account, previousBalances.value)]
  {
    var before := state.positions[(account, vault)];
    var i := FindUnlocking(before.unlocking, positionId).value;
    var once := WithdrawUnlocked(state, unlockQuery, now, account, vault, positionId, previousBalances).value.state;
    var mid := once.positions[(account, vault)];
    SameIdsSameMatch(before.unlocking, mid.unlocking, positionId, i);
    var twice := WithdrawUnlocked(once, unlockQuery, now, account, vault, positionId, previousBalances).value.state;
    var after := twice.positions[(account, vault)];
    assert after.unlocking == mid.unlocking;
    assert after == mid;
    assert twice.positions == once.positions;
  }

  /** Rewriting entry `i` keeping its id keeps the first match at `i`. */
  lemma {:induction false} SameIdsSameMatch(xs: seq<UnlockingEntry>, ys: seq<UnlockingEntry>, id: nat, i: nat)
    requires |xs| == |ys| && i < |xs|
    requires FindUnlocking(xs, id) == Some(i)
    requires ys[i].id == id
    requires forall j :: 0 <= j < |xs| && j != i ==> ys[j] == xs[j]
    ensures FindUnlocking(ys, id) == Some(i)
    decreases |xs|
  {
    if i > 0 {
      assert xs[0].id != id;
      SameIdsSameMatch(xs[1..], ys[1..], id, i - 1);
    }
  }
}
